=== FILE: README.md ===
# SupplySense inventory core in Dafny

SupplySense is an inventory dashboard: a FastAPI server over MongoDB
(`ml-backend/main.py`) and a React client. This project models the parts of both
that hold logic. Each is a pure function over immutable data, with contracts that
say what it promises.

- **Server.**
  - The stock status rule.
  - `POST /products` coercion and validation, and `PUT` and `DELETE /products/{id}`.
  - The shared create/update/delete endpoints of the other resources, over an
    abstract collection map keyed by ObjectId. Two create replies are modelled:
    suppliers, warehouses, purchase orders and stock transfers reply with the stored
    document. Shipments, orders and deliveries reply with the inserted dictionary,
    which carries `_id`.
  - `/optimize`: category aggregation and reorder recommendations.
  - `/forecast` chart assembly, and `/insights` with its trend, demand-level and
    recommendation classifiers.
- **Product list** (`ProductManagement.tsx`): filtering, CSV export and import, the
  cache append after import, delete with rollback, save dispatch and the status
  counters.
- **Product dialog** (`ProductDialog.tsx`): the form it opens with, numeric input
  parsing, the new-id scheme and the product it hands back.
- **Item editors** for purchase orders, stock transfers and customer orders: item
  rows, submit dispatch, name lookups, and what a settled request does to the screen
  and the query cache.
- **Dashboard** (`InventoryOverview.tsx`): the top-product trend arrows and the
  low-stock alerts with their badges.
- **Profile and settings pages, and the app header**: load defaults, the e-mail
  pattern, the stored records, dark mode, colour palettes, and the avatar initials.

Modules follow the source. `StockRules`, `Products`, `ServerStore`, `ProductApi`,
`CrudApi`, `Optimize` and `Demand` model the server. `ProductManagement`,
`ProductDialog`, `PurchaseOrders`, `StockTransfers`, `CustomerOrders`,
`InventoryOverview`, `ProfileSettings`, `Settings` and `AppShell` model the client.
They share `ItemList`, `LineItems`, `Lookup` and `Editor` for the editor pattern, and
`Text`, `Seqs` and `Wrappers` for strings, lists and options.

Inputs the code cannot know are parameters:
- `freshId` is the ObjectId MongoDB assigns.
- `mockHistory` and `mockSales` are the `np.random.randint` draws.
- `predict` and `slopeOf` stand for the regression.
- `nowMillis` and `today` are the clock.
- `backendOk` and `ok` say whether a request succeeded.
- `systemPrefersDark` is the colour-scheme media query.

Python and JavaScript numbers are exact `int` and `real` values. Python's `int()`
on a float is modelled as truncation toward zero (`ServerStore.Trunc`).

## Model

| member | source | states |
|---|---|---|
| StockRules.Classify | ml-backend/main.py:242-247 | Exactly one status: Critical iff stock ≤ min/2, Low Stock iff min/2 < stock ≤ min, In Stock iff above both; for a non-negative minimum, In Stock iff stock > min |
| StockRules.ClassifyMonotone | ml-backend/main.py:242-247 | More stock never gives a more urgent status, and stock 0 with minimum 0 is Critical |
| ServerStore.ParseObjectId | ml-backend/main.py:54-56 | An id parses iff it is 24 hexadecimal digits, and then denotes a 24-digit ObjectId |
| ServerStore.Trunc | ml-backend/main.py:197 | `int()` of a float truncates toward zero: the result lies within 1 of x, on the side of zero |
| ProductApi.CoerceField | ml-backend/main.py:228-232 | price goes through `float`, the others through `int`; a failing conversion leaves the value; no other field changes |
| ProductApi.CoerceNumbers | ml-backend/main.py:227-232 | Coercion never adds or removes a field, and fields other than stock, price and min_stock are untouched |
| ProductApi.FirstMissing | ml-backend/main.py:234-237 | None iff every required field is present; otherwise the first absent field in the list order, with all earlier ones present |
| ProductApi.FirstMissingByKeys | ml-backend/main.py:227-237 | Documents with the same field names lack the same first field, so coercion cannot change which field is reported |
| ProductApi.StatusFor | ml-backend/main.py:240-247 | The status is defined iff stock and min_stock (default 0) are numbers, and is then the shared classification |
| ProductApi.Prepare | ml-backend/main.py:242-258 | The stored document is the body plus status and sales_history; a body's own history is kept, otherwise the generated one |
| ProductApi.Insert | ml-backend/main.py:260-262 | Raises exactly when the document brings an `_id` that is already taken. A document without `_id` is stored under the fresh ObjectId, and the reply omits `_id` |
| ProductApi.AddValidated | ml-backend/main.py:239-263 | Raises exactly when the stock comparison fails on a non-number or the `_id` is taken. Otherwise the body is stored once under a new key, with its status and a sales history, and the reply is that stored document without `_id` |
| ProductApi.AddProduct | ml-backend/main.py:223-263 | Rejected iff a required field is missing, naming the first one, and then nothing is stored. Raises iff all are present but the coerced stock or minimum is not a number, or the `_id` is taken. Otherwise exactly one new document: the coerced body with the computed status and a sales history, replied without `_id` |
| ProductApi.StoredDocument | ml-backend/main.py:226-262 | The stored document has the body's fields minus `_id`, plus status and sales_history, and every field other than the levels, status and `_id` as sent |
| ProductApi.AddStoresBody | ml-backend/main.py:223-263 | An added product keeps every field of the request body except `_id` and the coerced levels unchanged, and gains exactly status and sales_history |
| ProductApi.IntStockWithoutMinimum | ml-backend/main.py:226-247 | A whole-number stock survives the coercion loop, and a missing min_stock is read as 0 |
| ProductApi.MinStockOptional | ml-backend/main.py:234-247 | A body without min_stock but with the six required fields is accepted, and its status uses min_stock 0 |
| ProductApi.UpdateProduct | ml-backend/main.py:291-310 | Succeeds iff the id is well formed and present and the body's stock and min_stock (default 0) are numbers, replying "Product updated successfully". Then the body without `_id` is merged into that one document with a recomputed status. A malformed id is 404; with a well-formed id, non-numeric levels are a 500; otherwise an unknown id is 404; no error changes anything |
| ProductApi.UpdateWithoutLevelsIsCritical | ml-backend/main.py:297-306 | A body with neither stock nor min_stock makes the product Critical, keeps the document's own `_id`, and leaves every other document unchanged |
| ProductApi.DeleteProduct | ml-backend/main.py:358-367 | Succeeds iff the id is well formed and present, removing exactly that document; otherwise 404 and nothing changes |
| CrudApi.Create | ml-backend/main.py:386-395 | Stores the body without a client `id` under the fresh key, one more document, and replies with it plus the new id |
| CrudApi.CreateEcho | ml-backend/main.py:594-600 | Shipments (and likewise orders at 646-652 and deliveries at 687-693) store the same document as `Create`, but the reply also carries the `_id` that `insert_one` added |
| CrudApi.Update | ml-backend/main.py:397-404 | Succeeds iff the id is well formed and present, merging the body minus `id` into that document. A malformed id is a 500 and an unknown one the resource's 404, both changing nothing |
| CrudApi.Delete | ml-backend/main.py:406-411 | Succeeds iff the id is well formed and present, removing exactly that document; errors change nothing |
| CrudApi.CreateIgnoresClientId | ml-backend/main.py:388-389 | The `id` a client sends does not affect what is stored |
| CrudApi.DeleteUndoesCreate | ml-backend/main.py:386-411 | Deleting what was just created succeeds and restores the collection |
| CrudApi.UpdateIdempotent | ml-backend/main.py:397-404 | Applying the same update twice gives the same collection and reply as once |
| Optimize.FirstSeen | ml-backend/main.py:188 | The distinct categories in order of first occurrence (dictionary key order): no repeats, same members |
| Optimize.AddToNewCategory | ml-backend/main.py:178-179 | A category not seen before gets a fresh entry at the end, holding only this product's amounts |
| Optimize.AddToCategories | ml-backend/main.py:178-179 | Adding a product keeps the category list when its category is known and appends the category otherwise |
| Optimize.AddToAt | ml-backend/main.py:177-186 | Adding a product touches only its own category's entry, growing it by exactly its stock and optimal level |
| Optimize.Aggregate | ml-backend/main.py:175-188 | The chart_data loop folded over the products; its contract is stated by the four Aggregate lemmas below |
| Optimize.AggregateCategories | ml-backend/main.py:175-188 | chart_data lists each category once, in order of first occurrence; missing categories are "Uncategorized" |
| Optimize.AggregateSumAt | ml-backend/main.py:175-188 | One entry of chart_data holds the sums over the products of its category |
| Optimize.AggregateSums | ml-backend/main.py:175-188 | Each entry's current and optimal are the sums over that category's products, with missing fields as 0 |
| Optimize.AggregateTotal | ml-backend/main.py:175-188 | The current totals over all categories add up to the total stock |
| Optimize.ReorderFor | ml-backend/main.py:192-212 | A recommendation exists iff stock < min; suggested is the truncation of 1.5·min − stock; high iff stock < min/2, medium iff min/2 ≤ stock < 0.75·min, else low |
| Optimize.Reorders | ml-backend/main.py:191-212 | One recommendation per product below its minimum, in collection order: entry i is the recommendation for the i-th short product |
| Optimize.EveryShortProductRecommended | ml-backend/main.py:191-212 | Every product below its minimum appears among the recommendations |
| Optimize.SuggestedOrderRestoresMinimum | ml-backend/main.py:196-197 | For a non-negative minimum, ordering the suggested quantity reaches at least the minimum |
| Optimize.GetOptimization | ml-backend/main.py:170-214 | The reply's categories are distinct and exactly those present, its current totals add to the total stock, and it holds one recommendation per short product. Its chart is the category aggregation and its recommendations are exactly those of Reorders |
| Demand.TrendOf | ml-backend/main.py:104-111 | Increasing iff slope > 5, Decreasing iff slope < −5, Stable in between including ±5 |
| Demand.DemandLevelOf | ml-backend/main.py:113-124 | Unknown iff the history is empty; otherwise High iff latest > 1.2·mean, Low iff latest < 0.8·mean, else Medium |
| Demand.DemandLevelScaled | ml-backend/main.py:113-124 | The same decision in integers: High iff 5·n·latest > 6·sum, Low iff 5·n·latest < 4·sum |
| Demand.Recommendation | ml-backend/main.py:126-132 | The fixed advice for each trend; RecommendationDeterminesTrend states that it tells the trends apart |
| Demand.RecommendationDeterminesTrend | ml-backend/main.py:126-132 | The recommendation is a total function of the trend, and different trends give different advice |
| Demand.MockHistory | ml-backend/main.py:64-71 | Six entries labelled "Month 1" to "Month 6" carrying the drawn sales |
| Demand.ChartData | ml-backend/main.py:93-100 | History entries come back in order as actuals; prediction i follows them labelled "Month n+i+1" with no actual |
| Demand.Forecast | ml-backend/main.py:51-102 | Succeeds iff the id is well formed and present, its history (if any) has at least two entries, and at least one period is asked for. 400 for a malformed id and 404 for an unknown one. A one-entry history is 400. With periods ≤ 0 the empty prediction raises, giving the generic 500. The store changes exactly when the product has no history, which is then set to the six generated months, even when the reply is an error. On success: n + periods points, the history first, then predict(k) labelled "Month k+1" |
| Demand.ForecastChart | ml-backend/main.py:79-100 | The chart has the history followed by one point per future period, the prediction for period index k at position k, labelled "Month k+1" |
| Demand.ForecastWithoutHistorySucceeds | ml-backend/main.py:62-77 | A product without history forecasts any positive number of periods, with 6 + periods points, and keeps the generated history |
| Demand.InsightFor | ml-backend/main.py:156-165 | An insight names its product; its demand level is the level of its history (never Unknown), its trend the classification of the slope, seasonality "N/A", and its advice the one for its trend |
| Demand.Selected | ml-backend/main.py:136-139 | Exactly the first min(3, k) of the k products with a non-empty history, in collection order |
| Demand.Insights | ml-backend/main.py:134-168 | One insight per selected product with at least two sales entries, in order, at most three; entry i is the insight for the i-th of those products with its slope |
| ProductManagement.FilterProducts | src/components/ProductManagement.tsx:91-96 | A product is shown iff its lower-cased name or SKU contains the lower-cased term and the category is "all" or its own, in list order, each shown product as often as it occurs in the list |
| ProductManagement.EmptySearchShowsAll | src/components/ProductManagement.tsx:91-96 | An empty search with category "all" shows every product, in order |
| ProductManagement.ExportFields | src/components/ProductManagement.tsx:99-111 | The ten exported values follow the header order, with an undefined id shown as "undefined", and stock, minimum and price rendered as numbers |
| ProductManagement.Quote | src/components/ProductManagement.tsx:114 | A field is wrapped in double quotes with its contents unchanged (inner quotes are not escaped) |
| ProductManagement.ExportLines | src/components/ProductManagement.tsx:113-115 | The header line, then one line per product in order |
| ProductManagement.ExportCsv | src/components/ProductManagement.tsx:98-115 | The file text: the export lines joined by line breaks; ExportLineCount and ExportThenImport state what splitting and re-importing it give |
| ProductManagement.ExportLineCount | src/components/ProductManagement.tsx:113-115 | With no line break in any value, splitting the file at line breaks gives back exactly the header and the n product lines |
| ProductManagement.CsvLineCells | src/components/ProductManagement.tsx:114 | With no comma in any value, splitting a line at commas gives the quoted fields back |
| ProductManagement.ToNumber | src/components/ProductManagement.tsx:163 | `Number(cell)`: undefined is NaN, blank is 0, decimal digits give their value, a leading quote gives NaN |
| ProductManagement.ParseRow | src/components/ProductManagement.tsx:162-163 | Cells are assigned by position, with undefined past the end, and the numeric columns go through `Number` |
| ProductManagement.DataRows | src/components/ProductManagement.tsx:160 | Every line after the first is parsed, one row per line, in order |
| ProductManagement.ImportCsv | src/components/ProductManagement.tsx:158-164 | Keeps exactly the parsed data rows with a truthy id, in file order, a repeated row as often as the file repeats it |
| ProductManagement.ExportThenImport | src/components/ProductManagement.tsx:98-164 | Re-importing an export yields one row per product, but ids and names come back wrapped in quotes and the numbers are NaN, so it is not a round trip |
| ProductManagement.AppendImported | src/components/ProductManagement.tsx:170 | The cache keeps its old rows first (none if it was empty), then the imported ones |
| ProductManagement.ResolveProduct | src/components/ProductManagement.tsx:192 | The first product whose id or `_id` equals the key; None iff no product matches |
| ProductManagement.BackendId | src/components/ProductManagement.tsx:192-197 | A request id exists iff the resolved product has a non-empty `_id`, and is that `_id` |
| ProductManagement.HandleDelete | src/components/ProductManagement.tsx:190-207 | No request without a backend id. The cache is invalidated iff the request succeeds, and restored to the snapshot when it fails, so its contents never change here |
| ProductManagement.DeleteRowAsWrittenHitsWrongProduct | src/components/ProductManagement.tsx:351 | With two products stored without an `id`, the delete button of the second sends the first product's `_id` |
| ProductManagement.DeleteRow | src/components/ProductManagement.tsx:190-207 | The corrected button (passing `_id`) never changes the cache contents and invalidates only after a successful request |
| ProductManagement.DeleteRowTargetsClickedRow | src/components/ProductManagement.tsx:190-193 | With unique `_id`s, the corrected button deletes exactly the clicked product |
| ProductManagement.HandleSave | src/components/ProductManagement.tsx:210-216 | Adding posts the product. Editing puts it iff it has a non-empty `_id`, and otherwise fails with "Product _id is required for update" |
| ProductManagement.StatusCountsAsWritten | src/components/ProductManagement.tsx:219-221 | Each counter is the length of its own filter over the product list |
| ProductManagement.CountsOverlapForNegativeMinimum | src/components/ProductManagement.tsx:219-221 | Stock −3 against minimum −4 is counted both In Stock and Critical, so the counters sum to more than the list |
| ProductManagement.StatusCountsOf | src/components/ProductManagement.tsx:219-221 | Counting by the status rule, each counter is the number of products with that status, and the three always add up to the number of products |
| ProductManagement.CountsAgreeForNonNegativeMinimums | src/components/ProductManagement.tsx:219-221 | For non-negative minimums the counters as written equal the status-rule counts and add up to the list length |
| ProductDialog.FormFor | src/components/ProductDialog.tsx:29-51 | Editing shows the product's seven fields; adding shows the defaults (category "Electronics", zeros, empty text) |
| ProductDialog.LeadingDigits | src/components/ProductDialog.tsx:133 | The longest all-digit prefix of the input |
| ProductDialog.ParseIntOr0 | src/components/ProductDialog.tsx:133 | 0 when no digits follow the optional sign; a plain digit string gives its value |
| ProductDialog.ParseFloatOr0 | src/components/ProductDialog.tsx:156 | A plain digit string gives its value; no digits and no fraction give 0 |
| ProductDialog.ParseIntSigned | src/components/ProductDialog.tsx:133 | "-3" reads as −3 and "+3" as 3 |
| ProductDialog.ParseFloatDecimal | src/components/ProductDialog.tsx:156 | "12.99" reads as 12 + 99/100, and "-12.99" as its negation |
| Text.PadStartKeepsValue | src/components/ProductDialog.tsx:65 | Zero-padding a digit string keeps it a digit string with the same value |
| ProductDialog.NewId | src/components/ProductDialog.tsx:65 | "P" and the timestamp's last three digits, zero-padded; NewIdShape states its shape and value |
| ProductDialog.NewIdShape | src/components/ProductDialog.tsx:65 | A new id is "P" and three digits denoting the timestamp modulo 1000 |
| ProductDialog.DialogStatus | src/components/ProductDialog.tsx:68 | The dialog never says Critical: Low Stock iff stock ≤ min, otherwise In Stock |
| ProductDialog.BuildProduct | src/components/ProductDialog.tsx:53-69 | None iff name, SKU or supplier is empty. Otherwise the form's seven fields. An edit keeps `_id`, a truthy id and a non-empty restock date; an add gets the new id and today. No sales history |
| ProductDialog.EditUnchangedRoundTrip | src/components/ProductDialog.tsx:29-69 | Saving an unchanged edit gives the product back, except for the dialog's status and the dropped history |
| ProductDialog.HandleSave | src/components/ProductDialog.tsx:53-72 | A product is handed on iff the required fields are filled, and the dialog stays open iff they are not |
| ItemList.Append | src/components/PurchaseOrderManagement.tsx:129 | One more row: the old rows unchanged, then the new one |
| ItemList.ChangeAt | src/components/PurchaseOrderManagement.tsx:132-137 | Only the row at the index changes; every other row, and the length, stay |
| ItemList.RemoveAt | src/components/PurchaseOrderManagement.tsx:139-141 | Drops exactly the row at the index; an index off the list changes nothing |
| LineItems.ApplyPricedEdit | src/components/PurchaseOrderManagement.tsx:132-137 | An edit sets its one field and keeps the other two |
| LineItems.PricedEditsCompose | src/components/PurchaseOrderManagement.tsx:132-137 | Two edits of the same field keep the later value; edits of different fields commute |
| LineItems.ApplyTransferEdit | src/components/StockTransferManagement.tsx:131-136 | An edit sets its one field and keeps the other |
| Lookup.LabelFor | src/components/PurchaseOrderManagement.tsx:161 | A name is shown for the first record with the id when that name is non-empty; an id no record has is shown as is |
| Lookup.LabelIsIdOrName | src/components/PurchaseOrderManagement.tsx:167 | A label is the raw id or the name of a record with that id |
| Editor.Reset | src/components/PurchaseOrderManagement.tsx:69-72 | The form is empty and nothing is being edited; whether the dialog is open is kept |
| Editor.OpenForAdd | src/components/PurchaseOrderManagement.tsx:147 | The dialog opens on the empty form, adding |
| Editor.OpenForEdit | src/components/PurchaseOrderManagement.tsx:174 | The dialog opens editing the record, with the record as the form |
| Editor.OnSettled | src/components/PurchaseOrderManagement.tsx:75-117 | A failed request changes nothing. A successful one invalidates only its own query; a delete keeps the screen, while an add or edit closes the dialog and resets the form |
| Editor.SaveThenAddStartsEmpty | src/components/PurchaseOrderManagement.tsx:84-88 | After a successful save the dialog is closed, and the Add button opens it on an empty form |
| PurchaseOrders.AddItem | src/components/PurchaseOrderManagement.tsx:128-130 | One row (no product, quantity 1, price 0) appended at the end; nothing else changes |
| PurchaseOrders.ChangeItem | src/components/PurchaseOrderManagement.tsx:132-137 | Only the edited field of the row at the index changes |
| PurchaseOrders.RemoveItem | src/components/PurchaseOrderManagement.tsx:139-141 | Drops exactly that row; nothing else changes |
| PurchaseOrders.RemoveUndoesAddItem | src/components/PurchaseOrderManagement.tsx:128-141 | Removing the row just added gives the form back |
| PurchaseOrders.Submit | src/components/PurchaseOrderManagement.tsx:119-126 | Adding posts the form; editing puts the form with the edited order's id; no other field differs from the form |
| PurchaseOrders.EditUnchangedResends | src/components/PurchaseOrderManagement.tsx:119-126 | Opening an order for edit and submitting at once sends the order unchanged |
| PurchaseOrders.SupplierLabel | src/components/PurchaseOrderManagement.tsx:161 | The supplier-name lookup of the order's supplier id; an unknown supplier id is shown as is |
| PurchaseOrders.ItemLabels | src/components/PurchaseOrderManagement.tsx:167 | One label per item, each the product-name lookup of that item |
| PurchaseOrders.Settle | src/components/PurchaseOrderManagement.tsx:75-117 | Success invalidates only "purchase-orders" and an add or edit resets the form; failure changes nothing |
| StockTransfers.AddItem | src/components/StockTransferManagement.tsx:127-129 | One row (no product, quantity 1) appended at the end; nothing else changes |
| StockTransfers.ChangeItem | src/components/StockTransferManagement.tsx:131-136 | Only the edited field of the row at the index changes |
| StockTransfers.RemoveItem | src/components/StockTransferManagement.tsx:138-140 | Drops exactly that row; nothing else changes |
| StockTransfers.Submit | src/components/StockTransferManagement.tsx:118-125 | Adding posts the form; editing puts the form with the edited transfer's id |
| StockTransfers.SameWarehouseIsSent | src/components/StockTransferManagement.tsx:118-125 | A transfer from a warehouse to itself is sent unchanged: the form does not check it |
| StockTransfers.ItemLabels | src/components/StockTransferManagement.tsx:166 | One label per item, each the product-name lookup of that item; an id no product has is shown as is |
| StockTransfers.WarehouseLabels | src/components/StockTransferManagement.tsx:160 | Both warehouses are looked up by id; an unknown id is shown as is |
| StockTransfers.Settle | src/components/StockTransferManagement.tsx:73-116 | Success invalidates only "stock-transfers" and an add or edit resets the form; failure changes nothing |
| CustomerOrders.SetCustomer | src/components/OrderManagement.tsx:186-204 | Each customer input replaces only its own field of customer_info |
| CustomerOrders.CustomerFieldsIndependent | src/components/OrderManagement.tsx:186-204 | Filling two different customer fields in either order gives the same form |
| CustomerOrders.AddItem | src/components/OrderManagement.tsx:122-124 | One row (no product, quantity 1, price 0) appended at the end; nothing else changes |
| CustomerOrders.ChangeItem | src/components/OrderManagement.tsx:126-131 | Only the edited field of the row at the index changes |
| CustomerOrders.RemoveItem | src/components/OrderManagement.tsx:133-135 | Drops exactly that row; nothing else changes |
| CustomerOrders.Submit | src/components/OrderManagement.tsx:113-120 | Adding posts the form; editing puts the form with the edited order's id |
| CustomerOrders.ItemLabels | src/components/OrderManagement.tsx:161 | One label per item, each the product-name lookup of that item |
| CustomerOrders.Settle | src/components/OrderManagement.tsx:68-111 | Success invalidates only "orders" and an add or edit resets the form; failure changes nothing |
| InventoryOverview.DirectionOf | src/components/InventoryOverview.tsx:35-41 | Up iff there are at least two entries and the last sale exceeds the first; Down iff it is below; otherwise Flat |
| InventoryOverview.TopProducts | src/components/InventoryOverview.tsx:34-43 | The first min(5, n) products in order, each with its direction |
| InventoryOverview.LowStockAlerts | src/components/InventoryOverview.tsx:44 | Exactly the products strictly below their minimum, in list order, each as often as it occurs in the list |
| InventoryOverview.BadgeOf | src/components/InventoryOverview.tsx:125-126 | Urgent iff stock < min/2, equivalently 2·stock < min |
| InventoryOverview.LowAlertsBetweenHalfAndMinimum | src/components/InventoryOverview.tsx:125-126 | An alert with a Low badge has min/2 ≤ stock < min |
| InventoryOverview.AlertsAgainstStatus | src/components/InventoryOverview.tsx:125-126 | An Urgent badge is always a Critical product. A product exactly at half its minimum is Critical but badged Low. One exactly at its minimum is Low Stock but raises no alert |
| ProfileSettings.Load | src/pages/ProfileSettings.tsx:24-34 | Nothing stored gives "John Doe" / "john@example.com" / no avatar; otherwise each stored field or "" |
| ProfileSettings.MatchesEmailPattern | src/pages/ProfileSettings.tsx:44 | The regular expression `^[^@\s]+@[^@\s]+\.[^@\s]+$` as a predicate; EmailPatternShape characterises it |
| ProfileSettings.EmailPatternShape | src/pages/ProfileSettings.tsx:44 | The pattern holds iff the e-mail has exactly one '@', no white space, a character before the '@', and a '.' after it with text between and after |
| ProfileSettings.PatternHasShape | src/pages/ProfileSettings.tsx:44 | A matching e-mail has one '@', no white space and an inner '.' after the '@' |
| ProfileSettings.ShapeMatchesPattern | src/pages/ProfileSettings.tsx:44 | Any e-mail of that shape matches the pattern |
| ProfileSettings.HandleSave | src/pages/ProfileSettings.tsx:37-50 | A blank trimmed name or e-mail gives the required message first. Then a pattern failure gives the e-mail message. Otherwise {name, e-mail, avatar} is stored as typed, with no password |
| ProfileSettings.SaveThenLoad | src/pages/ProfileSettings.tsx:24-50 | What is saved is what the page shows when it next opens |
| ProfileSettings.PaddedEmailRejected | src/pages/ProfileSettings.tsx:40-47 | An e-mail with leading white space is never stored, although the required check trims |
| Settings.Load | src/pages/Settings.tsx:23-31 | Nothing stored gives auto / default / notifications on. Otherwise a stored theme or colour, with empty as missing; notifications are off only for a stored `false` |
| Settings.SavedRecord | src/pages/Settings.tsx:35 | Save writes exactly theme, colour and the notification flag |
| Settings.SaveThenLoad | src/pages/Settings.tsx:23-35 | Saved settings with a non-empty theme and colour load back unchanged |
| Settings.IsDark | src/pages/Settings.tsx:39-43 | Dark iff the theme is "dark", or it is "auto" and the system prefers dark; never for "light" |
| Settings.PaletteFor | src/pages/Settings.tsx:44-59 | A palette exists exactly for "default", "green" and "orange". Each has the listed four values, its primary equals its secondary foreground, and its primary foreground is "210 40% 98%" |
| Settings.ApplyColor | src/pages/Settings.tsx:44-59 | A known colour sets exactly the four palette variables and keeps all others; an unknown colour changes nothing |
| Settings.ApplyColorForgetsPalette | src/pages/Settings.tsx:44-59 | A known colour overwrites the four palette variables, so what they held before does not matter |
| Settings.ApplyColorIdempotent | src/pages/Settings.tsx:44-59 | Saving a colour twice equals saving it once, and a known colour's result does not depend on the previous known colour |
| Settings.HandleSave | src/pages/Settings.tsx:33-59 | Save writes the record, sets dark mode by the rule above, and applies the colour's palette |
| AppShell.LoadProfile | src/App.tsx:44-50 | Nothing stored keeps the header as it was; otherwise the stored name and avatar, "" when missing |
| AppShell.OnStorage | src/App.tsx:53-55 | Only a storage event for "profile_settings" reloads the header; any other key leaves it unchanged |
| AppShell.SavedProfileReachesHeader | src/App.tsx:44-55 | A profile saved on the profile page reaches the header with its name and avatar |
| AppShell.DisplayName | src/App.tsx:87 | Never empty: the name, or "User" without one |
| AppShell.AvatarSource | src/App.tsx:80-84 | The stored avatar if non-empty, otherwise the fixed default image |
| AppShell.Initials | src/App.tsx:85 | At most two characters, and "JD" for an empty name |
| AppShell.FirstLettersSkipEmpty | src/App.tsx:85 | Empty words from repeated spaces contribute no letter |
| AppShell.FirstLettersOfWords | src/App.tsx:85 | Non-empty words contribute their first letters, one each, in order |
| AppShell.InitialsOfWords | src/App.tsx:85 | For a name of non-empty words separated by single spaces, the initials are the upper-cased first letters of its first two words |
| Text.TrimEmptyIffAllSpace | src/pages/ProfileSettings.tsx:40 | A string trims to empty iff it is all white space |
| Text.JoinSplit | src/components/ProductManagement.tsx:160 | Splitting at a separator and joining the pieces again gives the text back |
| Text.SplitJoin | src/components/ProductManagement.tsx:114-115 | Joining separator-free pieces and splitting again gives the pieces back |

## Left out

- Database and HTTP I/O, CORS, uvicorn start-up, rendering, routing, toasts and timers are not modelled. The collection is an abstract map, and request success is an input.
- The regression (`LinearRegression` fit and predict) is an input: `predict` for `/forecast`, `slopeOf` for `/insights`. The random `confidence` of an insight is left out.
- The random draws (`np.random.randint`, random avatars) and the clock are parameters, not generated.
- `/forecast-accuracy`, `/cost-savings`, `/stock-movement`, `/import-excel` and `/last-mile-deliveries` are left out. They are floating-point heuristics, random simulation, or thin wrappers over pandas.
- The purchase-order specific `product_id` conversion of `POST /purchase-orders` (ml-backend/main.py:443-467) is not modelled. The shared create/update/delete pattern is.
- The pydantic request models are not modelled: `CrudApi` takes the already-validated body.
- CrudApi.CreateEcho: the reply's `_id` is an ObjectId value. Whether FastAPI can serialise it is outside the model.
- XLSX and PDF export and the XLSX import branch are left out; they are wrappers over libraries that are not part of this model.
- react-query internals (refetch scheduling, de-duplication) are left out. Only the explicit cache writes and the set of invalidated keys are modelled.
- The supplier, warehouse, shipment, delivery, stock-optimization, demand-forecast, analytics, last-mile, index and logout views are left out. They repeat the CRUD-over-fetch pattern or only display server data.
- populate_sample_data.py is a seeding script and is left out.
- Text.Upper and Text.Lower map ASCII letters only; `toUpperCase` and `toLowerCase` also map other scripts and can change length (for example 'ß').
- ProductManagement.ToNumber: covers undefined, blank, plain-digit and quote-prefixed cells only. Other JavaScript `Number` syntaxes (signs, fractions, exponents, hex) are NaN in the model.
- ProductDialog.ParseIntOr0: reads only a sign and decimal digits; it does not model the hex or radix rules of `parseInt`.
- ProductDialog.ParseFloatOr0: handles an optional sign, digits and an optional fraction; exponents and "Infinity" are not modelled.
- ProductApi.CoerceField: `int()` and `float()` of a string are modelled for plain decimal digits only. Other strings are treated as failing conversions and left as they are.
- ProductManagement.ExportFields: the price column is rendered by the parameter `showPrice`, because JavaScript's number-to-string algorithm for fractions is not modelled. Stock and minimum use the integer rendering.
- Demand.HistoryDoc: a sales history is a list of entries with whole-number sales. `POST /products` keeps a body's own `sales_history` as sent, and the non-empty filter of `/insights` admits any non-array value. So the source can meet float sales, which it fits and returns as floats, and entries without "sales" or a history that is not a list, which raise (a 500). None of these is modelled.
- Products.Product: every cached product has a number for stock and min_stock and a string for every text field. The `['products']` cache can also hold CSV rows appended after an import (NaN levels, undefined fields) and server products stored without min_stock. For those, the status counters and the alert list compare with NaN or undefined, which is always false. The product filter calls `toLowerCase()` on the name and SKU, so an imported row without a name (a data line with a single cell) makes the next render throw, and one without a SKU throws as soon as a non-empty search term does not match its name.
- ProductManagement.StatusCountsAsWritten: the counters are stated for products with numeric levels only. A row with a NaN or missing level is counted by none of the three filters, so the counters then add up to less than the list length. The export writes such a level as "NaN" or "undefined", and the alert list leaves the row out.
- Demand.Selected: a stored `sales_history` of `null` passes the MongoDB query but makes `len()` raise. The model treats null as a missing history.
- Optimize.StockDoc: stock and min_stock are whole numbers. `PUT /products` stores levels as sent, so a fractional level (say 2.5) is possible there and `/optimize` would sum and compare it as a float. With fractional levels `SuggestedOrderRestoresMinimum` would no longer hold (stock 0.5, minimum 0.6 suggests 0).
- Optimize.CategoryOf: a stored `"category": null` is read as a missing category, so it joins "Uncategorized". In Python `p.get("category", "Uncategorized")` returns `None` for it, which is a separate key of its own.
- Server errors other than those named (such as a non-numeric stock reaching the status comparison) are modelled as the generic 500 reply.

## Findings

| source | as written | input that shows it | evidently intended | confidence | as-written member | corrected member |
|---|---|---|---|---|---|---|
| src/components/ProductManagement.tsx:351 | The row's delete button passes `product.id`, and `handleDeleteProduct` takes the first product whose `id` or `_id` equals it | Two products stored without an `id` (as the seeding script stores them); deleting the second one sends the first one's `_id` | Pass the row's `_id`, so the request targets the clicked row | not executed; high | ProductManagement.DeleteRowAsWrittenHitsWrongProduct | ProductManagement.DeleteRowTargetsClickedRow |
| src/components/ProductManagement.tsx:219-221 | Three independent filters: `stock > min`, `min/2 < stock <= min`, `stock <= min/2` | stock −3, minimum −4: counted both In Stock and Critical | Counters that partition the products, as the server's status rule does | not executed; low (negative minimums are unusual) | ProductManagement.CountsOverlapForNegativeMinimum | ProductManagement.StatusCountsOf |

=== FILE: app_shell.dfy ===
/** The header of src/App.tsx: the profile it reads from local storage, and the name,
    avatar and initials it shows. */
module AppShell {
  import opened Wrappers
  import Text
  import ProfileSettings

  /** What the header keeps of the profile; both fields start empty. */
  datatype HeaderProfile = HeaderProfile(name: string, avatar: string)

  const InitialHeader := HeaderProfile("", "")

  const DefaultAvatar := "https://i.pravatar.cc/150?img=8"

  /** `loadProfile`: with nothing stored the header keeps what it had. */
  function LoadProfile(current: HeaderProfile, stored: Option<ProfileSettings.StoredProfile>): (h: HeaderProfile)
    ensures stored.None? ==> h == current
    ensures stored.Some? ==>
      h == HeaderProfile(stored.value.name.GetOr(""), stored.value.avatar.GetOr(""))
  {
    match stored
    case None => current
    case Some(r) => HeaderProfile(r.name.GetOr(""), r.avatar.GetOr(""))
  }

  /** A `storage` event from another tab: only the profile's key triggers a reload. */
  function OnStorage(current: HeaderProfile, key: string, stored: Option<ProfileSettings.StoredProfile>): (h: HeaderProfile)
    ensures key != ProfileSettings.StorageKey ==> h == current
    ensures key == "profile_settings" ==> h == LoadProfile(current, stored)
  {
    if key == ProfileSettings.StorageKey then LoadProfile(current, stored) else current
  }

  /** A profile saved on the profile page shows up in the header with its name and avatar. */
  lemma SavedProfileReachesHeader(current: HeaderProfile, p: ProfileSettings.Profile)
    requires ProfileSettings.HandleSave(p).Stored?
    ensures OnStorage(current, "profile_settings", Some(ProfileSettings.HandleSave(p).record))
      == HeaderProfile(p.name, p.avatar)
  {
  }

  /** `profile.name || "User"`. */
  function DisplayName(h: HeaderProfile): (shown: string)
    ensures shown != ""
    ensures h.name != "" ==> shown == h.name
  {
    if h.name != "" then h.name else "User"
  }

  /** The stored avatar, or the fixed default image. */
  function AvatarSource(h: HeaderProfile): (src: string)
    ensures src != ""
    ensures h.avatar != "" ==> src == h.avatar
    ensures h.avatar == "" ==> src == DefaultAvatar
  {
    if h.avatar != "" then h.avatar else DefaultAvatar
  }

  /** `words.map(n => n[0]).join("")`: the first character of every word; an empty word
      gives `undefined`, which `join` renders as nothing. */
  function FirstLetters(words: seq<string>): (r: string)
    ensures |r| <= |words|
    decreases |words|
  {
    if |words| == 0 then ""
    else (if words[0] == "" then "" else [words[0][0]]) + FirstLetters(words[1..])
  }

  /** With no empty word, one letter per word, in order. */
  lemma {:induction false} FirstLettersOfWords(words: seq<string>)
    requires forall k :: 0 <= k < |words| ==> words[k] != ""
    ensures |FirstLetters(words)| == |words|
    ensures forall k :: 0 <= k < |words| ==> FirstLetters(words)[k] == words[k][0]
    decreases |words|
  {
    if |words| > 0 {
      FirstLettersOfWords(words[1..]);
      assert forall k :: 1 <= k < |words| ==> words[1..][k - 1] == words[k];
    }
  }

  /** Empty words contribute nothing. */
  lemma {:induction false} FirstLettersSkipEmpty(a: seq<string>, b: seq<string>)
    ensures FirstLetters(a + [""] + b) == FirstLetters(a + b)
    decreases |a|
  {
    if |a| == 0 {
      assert a + [""] + b == [""] + b && a + b == b;
      assert ([""] + b)[1..] == b;
      assert FirstLetters([""] + b) == "" + FirstLetters(b);
    } else {
      FirstLettersSkipEmpty(a[1..], b);
      assert (a + [""] + b)[1..] == a[1..] + [""] + b;
      assert (a + b)[1..] == a[1..] + b;
    }
  }

  /** The avatar's fallback text: "JD" without a name, otherwise the upper-cased first
      letters of the space-separated words, at most two. */
  function Initials(name: string): (r: string)
    ensures |r| <= 2
    ensures name == "" ==> r == "JD"
  {
    if name == "" then "JD"
    else
      var letters := Text.Upper(FirstLetters(Text.Split(name, ' ')));
      if |letters| <= 2 then letters else letters[..2]
  }

  /** For a name made of space-free, non-empty words separated by single spaces, the
      initials are the upper-cased first letters of its first two words. */
  lemma InitialsOfWords(words: seq<string>)
    requires |words| >= 1
    requires forall k :: 0 <= k < |words| ==> words[k] != "" && ' ' !in words[k]
    ensures var n := if |words| < 2 then |words| else 2;
      Initials(Text.Join(words, ' ')) == seq(n, k requires 0 <= k < n => Text.UpperChar(words[k][0]))
  {
    Text.SplitJoin(words, ' ');
    FirstLettersOfWords(words);
    assert Text.Join(words, ' ') != "" by {
      JoinStartsWith(words);
    }
  }

  /** A join starts with its first piece. */
  lemma JoinStartsWith(parts: seq<string>)
    requires |parts| >= 1
    ensures |Text.Join(parts, ' ')| >= |parts[0]|
    ensures Text.Join(parts, ' ')[..|parts[0]|] == parts[0]
  {
    if |parts| > 1 {
      assert Text.Join(parts, ' ') == parts[0] + ([' '] + Text.Join(parts[1..], ' '));
    }
  }
}

=== FILE: crud_api.dfy ===
/** The create/update/delete endpoints shared by suppliers, warehouses, purchase
    orders, stock transfers, shipments, orders and deliveries (ml-backend/main.py),
    over an abstract collection. Suppliers, warehouses, purchase orders and stock
    transfers reply to a create with the stored document, `id` instead of `_id`
    (`Create`); shipments, orders and deliveries reply with the dictionary they
    inserted, which `insert_one` has given an `_id` (`CreateEcho`). */
module CrudApi {
  import opened Wrappers
  import opened ServerStore
  import Text

  /** `POST /<resource>`. `body` is the validated request model (`dict(exclude_unset=True)`);
      the models declare no `_id` field, so it never carries one. `freshId` is the
      ObjectId MongoDB assigns. A client-supplied `id` is dropped. */
  function Create(coll: Collection, body: Record, freshId: string): (r: (Record, Collection))
    requires "_id" !in body
    requires VOid(freshId) !in coll
    ensures r.1 == coll[VOid(freshId) := Pop(body, "id")]
    ensures |r.1| == |coll| + 1
    ensures "id" !in r.1[VOid(freshId)]
    ensures r.0 == r.1[VOid(freshId)]["id" := VStr(freshId)]
  {
    var data := Pop(body, "id");
    (data["id" := VStr(freshId)], coll[VOid(freshId) := data])
  }

  /** `POST /shipments`, `/orders` and `/deliveries`: the same document is stored, but
      the reply is the inserted dictionary itself, to which `insert_one` added `_id`,
      with `id` set as well. */
  function CreateEcho(coll: Collection, body: Record, freshId: string): (r: (Record, Collection))
    requires "_id" !in body
    requires VOid(freshId) !in coll
    ensures r.1 == Create(coll, body, freshId).1
    ensures r.0.Keys == Create(coll, body, freshId).0.Keys + {"_id"}
    ensures r.0["_id"] == VOid(freshId) && r.0["id"] == VStr(freshId)
    ensures forall k :: k in r.0 && k != "_id" ==> r.0[k] == Create(coll, body, freshId).0[k]
  {
    var data := Pop(body, "id");
    (data["_id" := VOid(freshId)]["id" := VStr(freshId)], coll[VOid(freshId) := data])
  }

  /** `PUT /<resource>/{id}`: `$set` merges the body's fields (minus `id`) into that one
      document. A malformed id is an uncaught `InvalidId` (500); an unknown one is 404
      with the resource's `notFound` detail. */
  function Update(coll: Collection, recordId: string, body: Record, notFound: string): (r: (Reply<Record>, Collection))
    ensures !IsObjectIdText(recordId) ==> r.0 == HttpError(500, InternalError) && r.1 == coll
    ensures IsObjectIdText(recordId) && VOid(Text.Lower(recordId)) !in coll ==> r.0 == HttpError(404, notFound) && r.1 == coll
    ensures r.0.Ok? <==> IsObjectIdText(recordId) && VOid(Text.Lower(recordId)) in coll
    ensures r.0.HttpError? ==> r.1 == coll
    ensures r.0.Ok? ==>
      && r.1 == coll[VOid(Text.Lower(recordId)) := coll[VOid(Text.Lower(recordId))] + Pop(body, "id")]
      && r.0.body == Pop(body, "id")["id" := VStr(recordId)]
  {
    match ParseObjectId(recordId)
    case None => (HttpError(500, InternalError), coll)
    case Some(key) =>
      var data := Pop(body, "id");
      if key !in coll then (HttpError(404, notFound), coll)
      else (Ok(data["id" := VStr(recordId)]), coll[key := coll[key] + data])
  }

  /** `DELETE /<resource>/{id}`: removes exactly that document. `notFound` is the
      resource's 404 detail, such as "Supplier not found". */
  function Delete(coll: Collection, recordId: string, notFound: string): (r: (Reply<Record>, Collection))
    ensures !IsObjectIdText(recordId) ==> r.0 == HttpError(500, InternalError) && r.1 == coll
    ensures r.0.Ok? <==> IsObjectIdText(recordId) && VOid(Text.Lower(recordId)) in coll
    ensures r.0.HttpError? ==> r.1 == coll
    ensures IsObjectIdText(recordId) && VOid(Text.Lower(recordId)) !in coll ==> r.0 == HttpError(404, notFound)
    ensures r.0.Ok? ==> r.1 == coll - {VOid(Text.Lower(recordId))} && |r.1| == |coll| - 1
    ensures r.0.Ok? ==> r.0.body == map["id" := VStr(recordId), "deleted" := VBool(true)]
  {
    match ParseObjectId(recordId)
    case None => (HttpError(500, InternalError), coll)
    case Some(key) =>
      if key !in coll then (HttpError(404, notFound), coll)
      else (Ok(map["id" := VStr(recordId), "deleted" := VBool(true)]), coll - {key})
  }

  /** The id a client sends with a create has no effect on what is stored. */
  lemma CreateIgnoresClientId(coll: Collection, body: Record, freshId: string, clientId: Value)
    requires "_id" !in body
    requires VOid(freshId) !in coll
    ensures Create(coll, body["id" := clientId], freshId) == Create(coll, body - {"id"}, freshId)
  {
    var sent := Pop(body["id" := clientId], "id");
    var stripped := Pop(body - {"id"}, "id");
    assert sent.Keys == stripped.Keys;
    assert forall k :: k in sent ==> sent[k] == body[k] == stripped[k];
    assert sent == stripped;
  }

  /** Deleting what was just created restores the collection. */
  lemma DeleteUndoesCreate(coll: Collection, body: Record, freshId: string, notFound: string)
    requires "_id" !in body
    requires VOid(freshId) !in coll
    requires IsObjectIdText(freshId) && Text.Lower(freshId) == freshId
    ensures Delete(Create(coll, body, freshId).1, freshId, notFound).0.Ok?
    ensures Delete(Create(coll, body, freshId).1, freshId, notFound).1 == coll
  {
    var after := Create(coll, body, freshId).1;
    assert after - {VOid(freshId)} == coll;
  }

  /** Sending the same update twice leaves the collection as one update does. */
  lemma UpdateIdempotent(coll: Collection, recordId: string, body: Record, notFound: string)
    requires Update(coll, recordId, body, notFound).0.Ok?
    ensures Update(Update(coll, recordId, body, notFound).1, recordId, body, notFound)
      == Update(coll, recordId, body, notFound)
  {
    var key := VOid(Text.Lower(recordId));
    var data := Pop(body, "id");
    var once := coll[key := coll[key] + data];
    assert once[key] + data == once[key];
    assert once[key := once[key] + data] == once;
  }
}

=== FILE: customer_orders.dfy ===
/** The customer-order editor of src/components/OrderManagement.tsx. */
module CustomerOrders {
  import opened Wrappers
  import ItemList
  import Lookup
  import Editor
  import opened LineItems

  datatype CustomerInfo = CustomerInfo(name: string, email: string, phone: string)

  datatype CustomerOrder = CustomerOrder(
    id: Option<string>,
    customer: CustomerInfo,
    items: seq<PricedItem>,
    status: string,
    deliveryAddress: string,
    placedDate: string)

  const QueryKey := "orders"

  /** The form after `resetForm`. */
  const EmptyOrder := CustomerOrder(None, CustomerInfo("", "", ""), [], "pending", "", "")

  /** The three customer inputs: each replaces its own field of `customer_info`. */
  datatype CustomerField = CustomerName | CustomerEmail | CustomerPhone

  function SetCustomer(f: CustomerOrder, field: CustomerField, value: string): (r: CustomerOrder)
    ensures r.customer.name == (if field == CustomerName then value else f.customer.name)
    ensures r.customer.email == (if field == CustomerEmail then value else f.customer.email)
    ensures r.customer.phone == (if field == CustomerPhone then value else f.customer.phone)
    ensures r.(customer := f.customer) == f
  {
    match field
    case CustomerName => f.(customer := f.customer.(name := value))
    case CustomerEmail => f.(customer := f.customer.(email := value))
    case CustomerPhone => f.(customer := f.customer.(phone := value))
  }

  /** Filling in the three customer fields, in any order, gives the same form. */
  lemma CustomerFieldsIndependent(f: CustomerOrder, a: CustomerField, b: CustomerField, x: string, y: string)
    requires a != b
    ensures SetCustomer(SetCustomer(f, a, x), b, y) == SetCustomer(SetCustomer(f, b, y), a, x)
  {
  }

  /** `handleAddItem`: one new row at the end, nothing else changes. */
  function AddItem(f: CustomerOrder): (r: CustomerOrder)
    ensures |r.items| == |f.items| + 1
    ensures r.items[..|f.items|] == f.items && r.items[|f.items|] == NewPricedItem
    ensures r.(items := f.items) == f
  {
    f.(items := ItemList.Append(f.items, NewPricedItem))
  }

  /** `handleItemChange`: only the field of the row at `idx`; an index off the list changes nothing. */
  function ChangeItem(f: CustomerOrder, idx: int, e: PricedEdit): (r: CustomerOrder)
    ensures |r.items| == |f.items|
    ensures 0 <= idx < |f.items| ==> r.items[idx] == ApplyPricedEdit(f.items[idx], e)
    ensures forall i :: 0 <= i < |f.items| && i != idx ==> r.items[i] == f.items[i]
    ensures !(0 <= idx < |f.items|) ==> r == f
    ensures r.(items := f.items) == f
  {
    f.(items := ItemList.ChangeAt(f.items, idx, (item: PricedItem) => ApplyPricedEdit(item, e)))
  }

  /** `handleRemoveItem`: drops the row at `idx`. */
  function RemoveItem(f: CustomerOrder, idx: int): (r: CustomerOrder)
    ensures 0 <= idx < |f.items| ==> r.items == f.items[..idx] + f.items[idx + 1..]
    ensures !(0 <= idx < |f.items|) ==> r == f
    ensures r.(items := f.items) == f
  {
    f.(items := ItemList.RemoveAt(f.items, idx))
  }

  /** `handleSubmit`. */
  function Submit(form: CustomerOrder, editing: Option<CustomerOrder>): (r: Editor.Request<CustomerOrder>)
    ensures editing.None? ==> r == Editor.AddRequest(form)
    ensures editing.Some? ==> r.EditRequest? && r.record.id == editing.value.id
    ensures r.record.(id := form.id) == form
  {
    match editing
    case None => Editor.AddRequest(form)
    case Some(e) => Editor.EditRequest(form.(id := e.id))
  }

  /** The product shown for each item of an order. */
  function ItemLabels(products: seq<Lookup.Named>, o: CustomerOrder): (shown: seq<string>)
    ensures |shown| == |o.items|
    ensures forall k :: 0 <= k < |o.items| ==> shown[k] == Lookup.LabelFor(products, o.items[k].productId)
  {
    seq(|o.items|, k requires 0 <= k < |o.items| => Lookup.LabelFor(products, o.items[k].productId))
  }

  /** A settled add, edit or delete: only the order query is invalidated. */
  function Settle(s: Editor.Screen<CustomerOrder>, m: Editor.Mutation, ok: bool): (r: (Editor.Screen<CustomerOrder>, set<string>))
    ensures ok ==> r.1 == {"orders"}
    ensures !ok ==> r == (s, {})
    ensures ok && m != Editor.DeleteMutation ==> r.0 == Editor.Screen(EmptyOrder, None, false)
    ensures m == Editor.DeleteMutation ==> r.0 == s
  {
    Editor.OnSettled(s, m, ok, QueryKey, EmptyOrder)
  }
}

=== FILE: demand.dfy ===
/** Demand analytics of ml-backend/main.py: the trend, demand-level and recommendation
    classifiers, `POST /forecast` chart assembly and `GET /insights`. The linear
    regression is not modelled: its slope and predictions are inputs. */
module Demand {
  import opened Wrappers
  import opened ServerStore
  import opened Products
  import Seqs
  import Text

  datatype Trend = Increasing | Decreasing | Stable

  function TrendName(t: Trend): string {
    match t
    case Increasing => "Increasing"
    case Decreasing => "Decreasing"
    case Stable => "Stable"
  }

  /** `get_trend`: the regression slope against the thresholds +5 and -5 (exclusive). */
  function TrendOf(slope: real): (t: Trend)
    ensures t == Increasing <==> slope > 5.0
    ensures t == Decreasing <==> slope < -5.0
    ensures t == Stable <==> -5.0 <= slope <= 5.0
  {
    if slope > 5.0 then Increasing
    else if slope < -5.0 then Decreasing
    else Stable
  }

  datatype DemandLevel = Unknown | High | Low | Medium

  function DemandLevelName(d: DemandLevel): string {
    match d
    case Unknown => "Unknown"
    case High => "High"
    case Low => "Low"
    case Medium => "Medium"
  }

  function SumSales(h: seq<SalesEntry>): int
    decreases |h|
  {
    if |h| == 0 then 0 else SumSales(h[..|h| - 1]) + h[|h| - 1].sales
  }

  /** `np.mean` of the sales figures (exact). */
  function MeanSales(h: seq<SalesEntry>): real
    requires |h| > 0
  {
    SumSales(h) as real / |h| as real
  }

  /** `get_demand_level`: the latest sale against 1.2 and 0.8 times the mean. */
  function DemandLevelOf(h: seq<SalesEntry>): (d: DemandLevel)
    ensures d == Unknown <==> |h| == 0
    ensures |h| > 0 ==> (d == High <==> h[|h| - 1].sales as real > MeanSales(h) * 1.2)
    ensures |h| > 0 ==>
      (d == Low <==> h[|h| - 1].sales as real <= MeanSales(h) * 1.2
                     && h[|h| - 1].sales as real < MeanSales(h) * 0.8)
  {
    if |h| == 0 then Unknown
    else
      var last := h[|h| - 1].sales as real;
      if last > MeanSales(h) * 1.2 then High
      else if last < MeanSales(h) * 0.8 then Low
      else Medium
  }

  /** The demand level in integer arithmetic: with n sales summing to S and latest
      sale x, High iff 5nx > 6S, Low iff 5nx < 4S (never both when S >= 0). */
  lemma DemandLevelScaled(h: seq<SalesEntry>)
    requires |h| > 0
    ensures DemandLevelOf(h) == High <==> 5 * |h| * h[|h| - 1].sales > 6 * SumSales(h)
    ensures DemandLevelOf(h) == Low <==>
      5 * |h| * h[|h| - 1].sales <= 6 * SumSales(h) && 5 * |h| * h[|h| - 1].sales < 4 * SumSales(h)
  {
    var n := |h| as real;
    var x := h[|h| - 1].sales as real;
    var s := SumSales(h) as real;
    assert MeanSales(h) * n == s;
    assert x > MeanSales(h) * 1.2 <==> 5.0 * n * x > 6.0 * s by {
      assert MeanSales(h) * 1.2 * 5.0 * n == 6.0 * s;
    }
    assert x < MeanSales(h) * 0.8 <==> 5.0 * n * x < 4.0 * s by {
      assert MeanSales(h) * 0.8 * 5.0 * n == 4.0 * s;
    }
    assert (5 * |h| * h[|h| - 1].sales) as real == 5.0 * n * x;
  }

  /** `get_recommendation`. */
  function Recommendation(t: Trend): string {
    match t
    case Increasing => "Consider increasing stock by 15-25%"
    case Decreasing => "Consider reducing orders by 20-40%"
    case Stable => "Maintain current stock levels"
  }

  /** Different trends give different advice, so the advice determines the trend. */
  lemma RecommendationDeterminesTrend(t: Trend, u: Trend)
    ensures Recommendation(t) == Recommendation(u) <==> t == u
  {
    if t != u {
      assert Recommendation(t)[10] != Recommendation(u)[10] || Recommendation(t)[0] != Recommendation(u)[0];
    }
  }

  /** One entry of the forecast `chart_data`: `actual` for history, `predicted` for the future. */
  datatype ChartPoint = ChartPoint(period: string, actual: Option<int>, predicted: Option<real>)

  /** The label of the k-th month. */
  function MonthLabel(k: int): string {
    "Month " + Text.IntToString(k)
  }

  /** The chart: the history as actuals, then one prediction per future period,
      labelled by its month number counted from the first historical period. */
  function ChartData(history: seq<SalesEntry>, predictions: seq<real>): (r: seq<ChartPoint>)
    ensures |r| == |history| + |predictions|
    ensures forall i :: 0 <= i < |history| ==>
      r[i].predicted.None? && r[i].actual.Some? && SalesEntry(r[i].period, r[i].actual.value) == history[i]
    ensures forall i :: |history| <= i < |r| ==> r[i].actual.None? && r[i].predicted.Some?
    ensures forall i :: 0 <= i < |predictions| ==>
      r[|history| + i].predicted == Some(predictions[i]) && r[|history| + i].period == MonthLabel(|history| + i + 1)
  {
    seq(|history| + |predictions|, i requires 0 <= i < |history| + |predictions| =>
      if i < |history| then ChartPoint(history[i].period, Some(history[i].sales), None)
      else ChartPoint(MonthLabel(i + 1), None, Some(predictions[i - |history|])))
  }

  /** A product document as `/forecast` and `/insights` see it. */
  datatype HistoryDoc = HistoryDoc(name: string, salesHistory: Option<seq<SalesEntry>>)

  /** Python truthiness of the stored history: present and non-empty. */
  predicate HasHistory(d: HistoryDoc) {
    d.salesHistory.Some? && |d.salesHistory.value| > 0
  }

  /** The six generated months `Month 1` ... `Month 6` with the given sales figures. */
  function MockHistory(sales: seq<int>): (h: seq<SalesEntry>)
    requires |sales| == 6
    ensures |h| == 6
    ensures forall i :: 0 <= i < 6 ==> h[i] == SalesEntry(MonthLabel(i + 1), sales[i])
  {
    seq(6, i requires 0 <= i < 6 => SalesEntry(MonthLabel(i + 1), sales[i]))
  }

  /** `np.random.randint(50, 200)` draws. */
  predicate ValidMockSales(sales: seq<int>) {
    |sales| == 6 && forall i :: 0 <= i < 6 ==> 50 <= sales[i] < 200
  }

  /** `POST /forecast`. `mockSales` are the random draws for a product without
      history, and `predict(x)` the regression's prediction for period index x. The
      generated history is written back to the product before the forecast is made.
      With no future period to predict (`periods <= 0`) the regression is asked to
      predict from an empty array, which raises: the reply is the generic 500, after
      the generated history has been stored. */
  function Forecast(
    store: map<Value, HistoryDoc>, productId: string, periods: int,
    mockSales: seq<int>, predict: nat -> real): (r: (Reply<seq<ChartPoint>>, map<Value, HistoryDoc>))
    requires ValidMockSales(mockSales)
    ensures !IsObjectIdText(productId) ==>
      r.0 == HttpError(400, "Invalid product ID format") && r.1 == store
    ensures IsObjectIdText(productId) && VOid(Text.Lower(productId)) !in store ==>
      r.0 == HttpError(404, "Product not found") && r.1 == store
    ensures r.0.Ok? ==>
      var key := VOid(Text.Lower(productId));
      && key in store
      && var history := if HasHistory(store[key]) then store[key].salesHistory.value else MockHistory(mockSales);
      && |history| >= 2
      && periods > 0
      && |r.0.body| == |history| + periods
      && r.0.body[..|history|] == ChartData(history, [])
      && forall k :: |history| <= k < |r.0.body| ==>
           r.0.body[k].predicted == Some(predict(k)) && r.0.body[k].period == MonthLabel(k + 1)
    ensures r.0 == HttpError(400, "Not enough sales history to forecast") <==>
      && IsObjectIdText(productId)
      && VOid(Text.Lower(productId)) in store
      && HasHistory(store[VOid(Text.Lower(productId))])
      && |store[VOid(Text.Lower(productId))].salesHistory.value| < 2
    ensures r.0.Ok? <==>
      var key := VOid(Text.Lower(productId));
      && IsObjectIdText(productId) && key in store
      && (HasHistory(store[key]) ==> |store[key].salesHistory.value| >= 2)
      && periods > 0
    ensures r.0 == HttpError(500, InternalError) <==>
      var key := VOid(Text.Lower(productId));
      && IsObjectIdText(productId) && key in store
      && (HasHistory(store[key]) ==> |store[key].salesHistory.value| >= 2)
      && periods <= 0
    ensures
      var key := VOid(Text.Lower(productId));
      r.1 == if IsObjectIdText(productId) && key in store && !HasHistory(store[key])
             then store[key := store[key].(salesHistory := Some(MockHistory(mockSales)))]
             else store
    ensures r.1.Keys == store.Keys
  {
    match ParseObjectId(productId)
    case None => (HttpError(400, "Invalid product ID format"), store)
    case Some(key) =>
      if key !in store then (HttpError(404, "Product not found"), store)
      else
        var doc := store[key];
        var history := if HasHistory(doc) then doc.salesHistory.value else MockHistory(mockSales);
        var store' := if HasHistory(doc) then store else store[key := doc.(salesHistory := Some(history))];
        if |history| < 2 then (HttpError(400, "Not enough sales history to forecast"), store')
        else if periods <= 0 then (HttpError(500, InternalError), store')
        else (Ok(ForecastChart(history, periods, predict)), store')
  }

  /** The history followed by `periods` predictions, the prediction for period
      index k sitting at position k. */
  function ForecastChart(history: seq<SalesEntry>, periods: nat, predict: nat -> real): (chart: seq<ChartPoint>)
    ensures |chart| == |history| + periods
    ensures chart[..|history|] == ChartData(history, [])
    ensures forall k :: |history| <= k < |chart| ==>
      chart[k].predicted == Some(predict(k)) && chart[k].period == MonthLabel(k + 1)
  {
    var n := |history|;
    var predictions := seq(periods, i requires 0 <= i < periods => predict(n + i));
    var chart := ChartData(history, predictions);
    assert chart[..n] == ChartData(history, []);
    assert forall k :: n <= k < |chart| ==> chart[k] == chart[n + (k - n)];
    chart
  }

  /** A product without history gets a six-month history, so its forecast of at
      least one period succeeds and the generated history is stored. */
  lemma ForecastWithoutHistorySucceeds(
    store: map<Value, HistoryDoc>, productId: string, periods: int,
    mockSales: seq<int>, predict: nat -> real)
    requires ValidMockSales(mockSales)
    requires periods >= 1
    requires IsObjectIdText(productId)
    requires VOid(Text.Lower(productId)) in store
    requires !HasHistory(store[VOid(Text.Lower(productId))])
    ensures Forecast(store, productId, periods, mockSales, predict).0.Ok?
    ensures |Forecast(store, productId, periods, mockSales, predict).0.body| == 6 + periods
    ensures Forecast(store, productId, periods, mockSales, predict).1[VOid(Text.Lower(productId))].salesHistory
      == Some(MockHistory(mockSales))
  {
  }

  /** One entry of `/insights` (the random `confidence` is not modelled). */
  datatype Insight = Insight(
    product: string,
    currentDemand: DemandLevel,
    predictedTrend: Trend,
    seasonality: string,
    recommendation: string)

  function InsightFor(d: HistoryDoc, slope: real): (r: Insight)
    requires HasHistory(d)
    ensures r.product == d.name
    ensures r.currentDemand == DemandLevelOf(d.salesHistory.value) && r.currentDemand != Unknown
    ensures r.predictedTrend == TrendOf(slope)
    ensures r.seasonality == "N/A"
    ensures r.recommendation == Recommendation(r.predictedTrend)
  {
    var t := TrendOf(slope);
    Insight(d.name, DemandLevelOf(d.salesHistory.value), t, "N/A", Recommendation(t))
  }

  predicate Forecastable(d: HistoryDoc) {
    HasHistory(d) && |d.salesHistory.value| >= 2
  }

  /** The documents the `/insights` query returns: the first three with a non-empty history. */
  function Selected(docs: seq<HistoryDoc>): (r: seq<HistoryDoc>)
    ensures |r| == if Seqs.Count(docs, HasHistory) < 3 then Seqs.Count(docs, HasHistory) else 3
    ensures r == Seqs.Filter(docs, HasHistory)[..|r|]
    ensures forall i :: 0 <= i < |r| ==> HasHistory(r[i]) && r[i] in docs
    ensures Seqs.IsSublist(r, docs)
  {
    var all := Seqs.Filter(docs, HasHistory);
    if |all| <= 3 then all else
      SublistPrefix(all, docs, 3);
      all[..3]
  }

  lemma {:induction false} SublistPrefix<T>(a: seq<T>, b: seq<T>, k: nat)
    requires Seqs.IsSublist(a, b) && k <= |a|
    ensures Seqs.IsSublist(a[..k], b)
    decreases |b|
  {
    if k > 0 && |b| > 0 {
      if a[0] == b[0] {
        assert a[..k][1..] == a[1..][..k - 1];
        SublistPrefix(a[1..], b[1..], k - 1);
      } else {
        SublistPrefix(a, b[1..], k);
      }
    }
  }

  /** One insight per document, in order. */
  function InsightList(chosen: seq<HistoryDoc>, slopeOf: seq<SalesEntry> -> real): (r: seq<Insight>)
    requires forall i :: 0 <= i < |chosen| ==> chosen[i].salesHistory.Some? && HasHistory(chosen[i])
    ensures |r| == |chosen|
    ensures forall i :: 0 <= i < |r| ==> r[i] == InsightFor(chosen[i], slopeOf(chosen[i].salesHistory.value))
  {
    seq(|chosen|, i requires 0 <= i < |chosen| =>
      InsightFor(chosen[i], slopeOf(chosen[i].salesHistory.value)))
  }

  /** `GET /insights`: one insight per selected product with at least two sales
      entries, in order. `slopeOf` stands for the regression fit of a history. */
  function Insights(docs: seq<HistoryDoc>, slopeOf: seq<SalesEntry> -> real): (r: seq<Insight>)
    ensures |r| <= 3
    ensures |r| == Seqs.Count(Selected(docs), Forecastable)
    ensures var chosen := Seqs.Filter(Selected(docs), Forecastable);
      forall i :: 0 <= i < |r| ==> r[i] == InsightFor(chosen[i], slopeOf(chosen[i].salesHistory.value))
    ensures forall i :: 0 <= i < |r| ==>
      exists j :: 0 <= j < |docs| && Forecastable(docs[j]) && r[i].product == docs[j].name
  {
    var chosen := Seqs.Filter(Selected(docs), Forecastable);
    var r := InsightList(chosen, slopeOf);
    forall i | 0 <= i < |r|
      ensures exists j :: 0 <= j < |docs| && Forecastable(docs[j]) && r[i].product == docs[j].name
    {
      var j :| 0 <= j < |docs| && docs[j] == chosen[i];
      assert r[i].product == docs[j].name;
    }
    r
  }
}

=== FILE: editor.dfy ===
/** The dialog state shared by the order screens (PurchaseOrderManagement,
    StockTransferManagement, OrderManagement): the form, the record being edited
    (None when adding) and whether the dialog is open, with the effects of opening
    the dialog and of the add/edit/delete mutations. */
module Editor {
  import opened Wrappers

  datatype Screen<F> = Screen(form: F, editing: Option<F>, dialogOpen: bool)

  datatype Mutation = AddMutation | EditMutation | DeleteMutation

  /** What `handleSubmit` sends: POST of the form, or PUT of the form with the edited
      record's id. */
  datatype Request<F> = AddRequest(record: F) | EditRequest(record: F)

  /** `resetForm()`: the empty form and nothing being edited; the dialog is left as is. */
  function Reset<F>(s: Screen<F>, empty: F): (r: Screen<F>)
    ensures r.form == empty && r.editing.None? && r.dialogOpen == s.dialogOpen
  {
    s.(form := empty, editing := None)
  }

  /** The Add button: open the dialog, then reset. */
  function OpenForAdd<F>(s: Screen<F>, empty: F): (r: Screen<F>)
    ensures r == Screen(empty, None, true)
  {
    Reset(s.(dialogOpen := true), empty)
  }

  /** The Edit button: edit the record with the record itself as the form. */
  function OpenForEdit<F>(s: Screen<F>, record: F): (r: Screen<F>)
    ensures r == Screen(record, Some(record), true)
  {
    Screen(record, Some(record), true)
  }

  /** The effect of a settled mutation on the screen, and the query keys it invalidates.
      A failing request has no handler, so nothing changes; a successful add or edit
      closes the dialog and resets the form; a successful delete changes only the cache. */
  function OnSettled<F>(s: Screen<F>, m: Mutation, ok: bool, key: string, empty: F): (r: (Screen<F>, set<string>))
    ensures !ok ==> r == (s, {})
    ensures ok ==> r.1 == {key}
    ensures ok && m == DeleteMutation ==> r.0 == s
    ensures ok && m != DeleteMutation ==> r.0 == Screen(empty, None, false)
  {
    if !ok then (s, {})
    else if m == DeleteMutation then (s, {key})
    else (Reset(s.(dialogOpen := false), empty), {key})
  }

  /** After a successful save the dialog is back in its initial state, so the next
      open for add starts from the empty form. */
  lemma SaveThenAddStartsEmpty<F>(s: Screen<F>, m: Mutation, key: string, empty: F)
    requires m != DeleteMutation
    ensures OpenForAdd(OnSettled(s, m, true, key, empty).0, empty) == Screen(empty, None, true)
    ensures !OnSettled(s, m, true, key, empty).0.dialogOpen
  {
  }
}

=== FILE: inventory_overview.dfy ===
/** The dashboard's product panels (src/components/InventoryOverview.tsx): the first
    five products with a sales trend, and the low-stock alerts with their badges. */
module InventoryOverview {
  import opened Wrappers
  import opened Products
  import Seqs
  import StockRules

  /** The arrow shown next to a top product. */
  datatype Direction = Up | Down | Flat

  /** Last against first sale of the history; Flat without at least two entries. */
  function DirectionOf(p: Product): (d: Direction)
    ensures d == Up <==>
      p.salesHistory.Some? && |p.salesHistory.value| > 1
      && p.salesHistory.value[|p.salesHistory.value| - 1].sales > p.salesHistory.value[0].sales
    ensures d == Down <==>
      p.salesHistory.Some? && |p.salesHistory.value| > 1
      && p.salesHistory.value[|p.salesHistory.value| - 1].sales < p.salesHistory.value[0].sales
  {
    match p.salesHistory
    case None => Flat
    case Some(h) =>
      if |h| <= 1 then Flat
      else if h[|h| - 1].sales > h[0].sales then Up
      else if h[|h| - 1].sales < h[0].sales then Down
      else Flat
  }

  /** A product and its arrow. */
  datatype TopProduct = TopProduct(product: Product, direction: Direction)

  const TopCount := 5

  /** `products.slice(0, 5)`, each with its arrow. */
  function TopProducts(ps: seq<Product>): (r: seq<TopProduct>)
    ensures |r| == if |ps| < TopCount then |ps| else TopCount
    ensures forall i :: 0 <= i < |r| ==> r[i].product == ps[i] && r[i].direction == DirectionOf(ps[i])
  {
    var n := if |ps| < TopCount then |ps| else TopCount;
    seq(n, i requires 0 <= i < n => TopProduct(ps[i], DirectionOf(ps[i])))
  }

  predicate BelowMinimum(p: Product) {
    p.stock < p.minStock
  }

  /** The alert list: the products strictly below their minimum, in list order. */
  function LowStockAlerts(ps: seq<Product>): (r: seq<Product>)
    ensures Seqs.IsSublist(r, ps)
    ensures forall p :: p in r <==> p in ps && p.stock < p.minStock
    ensures forall p :: multiset(r)[p] == if p.stock < p.minStock then multiset(ps)[p] else 0
  {
    Seqs.FilterMultiset(ps, BelowMinimum);
    Seqs.Filter(ps, BelowMinimum)
  }

  datatype Badge = Urgent | Low

  /** Urgent below half the minimum (`item.min_stock / 2` is true division). */
  function BadgeOf(p: Product): (b: Badge)
    ensures b == Urgent <==> (p.stock as real) < (p.minStock as real) / 2.0
    ensures b == Urgent <==> 2 * p.stock < p.minStock
  {
    if (p.stock as real) < (p.minStock as real) / 2.0 then Urgent else Low
  }

  /** Every alert's badge says how far below the minimum it is: Low alerts sit between
      half the minimum and the minimum. */
  lemma LowAlertsBetweenHalfAndMinimum(ps: seq<Product>, p: Product)
    requires p in LowStockAlerts(ps)
    ensures BadgeOf(p) == Low ==> p.minStock <= 2 * p.stock && p.stock < p.minStock
    ensures BadgeOf(p) == Urgent ==> 2 * p.stock < p.minStock
  {
  }

  /** The panel and the stored status use different boundaries: an Urgent badge is always
      a Critical product, but a product exactly at half its minimum is Critical with a Low
      badge, and one exactly at its minimum is Low Stock with no alert at all. */
  lemma AlertsAgainstStatus(p: Product)
    ensures BadgeOf(p) == Urgent ==>
      StockRules.Classify(p.stock as real, p.minStock as real) == StockRules.Critical
    ensures p.minStock > 0 && 2 * p.stock == p.minStock ==>
      BadgeOf(p) == Low && BelowMinimum(p)
      && StockRules.Classify(p.stock as real, p.minStock as real) == StockRules.Critical
    ensures p.minStock > 0 && p.stock == p.minStock ==>
      !BelowMinimum(p) && StockRules.Classify(p.stock as real, p.minStock as real) == StockRules.LowStock
  {
  }
}

=== FILE: item_list.dfy ===
/** The list updates the line-item editors apply to a form's `items`
    (PurchaseOrderManagement, StockTransferManagement and OrderManagement):
    append, change the item at an index, remove the item at an index. */
module ItemList {

  /** `[...items, x]`. */
  function Append<T>(items: seq<T>, x: T): (r: seq<T>)
    ensures |r| == |items| + 1
    ensures r[..|items|] == items && r[|items|] == x
  {
    items + [x]
  }

  /** `items.map((item, i) => i === idx ? f(item) : item)`. */
  function ChangeAt<T>(items: seq<T>, idx: int, f: T -> T): (r: seq<T>)
    ensures |r| == |items|
    ensures 0 <= idx < |items| ==> r[idx] == f(items[idx])
    ensures forall i :: 0 <= i < |items| && i != idx ==> r[i] == items[i]
  {
    seq(|items|, i requires 0 <= i < |items| => if i == idx then f(items[i]) else items[i])
  }

  /** `items.filter((_, i) => i !== idx)`, walking the list from the front. */
  function RemoveAt<T>(items: seq<T>, idx: int): (r: seq<T>)
    ensures 0 <= idx < |items| ==> r == items[..idx] + items[idx + 1..]
    ensures !(0 <= idx < |items|) ==> r == items
    decreases |items|
  {
    if |items| == 0 then []
    else if idx == 0 then items[1..]
    else
      var rest := RemoveAt(items[1..], idx - 1);
      assert 0 <= idx < |items| ==> items[1..][..idx - 1] == items[1..idx];
      assert [items[0]] + items[1..] == items;
      [items[0]] + rest
  }

  /** An out-of-range index changes nothing. */
  lemma ChangeOutOfRange<T>(items: seq<T>, idx: int, f: T -> T)
    requires !(0 <= idx < |items|)
    ensures ChangeAt(items, idx, f) == items
  {
  }

  /** Removing the item just appended gives the list back. */
  lemma RemoveUndoesAppend<T>(items: seq<T>, x: T)
    ensures RemoveAt(Append(items, x), |items|) == items
  {
    assert Append(items, x)[..|items|] == items;
  }

  /** Setting a field twice to the same value is the same as setting it once. */
  lemma ChangeIdempotent<T>(items: seq<T>, idx: int, f: T -> T)
    requires forall x :: f(f(x)) == f(x)
    ensures ChangeAt(ChangeAt(items, idx, f), idx, f) == ChangeAt(items, idx, f)
  {
  }

  /** Changes at two different indices commute. */
  lemma ChangesCommute<T>(items: seq<T>, i: int, j: int, f: T -> T, g: T -> T)
    requires i != j
    ensures ChangeAt(ChangeAt(items, i, f), j, g) == ChangeAt(ChangeAt(items, j, g), i, f)
  {
  }
}

=== FILE: line_items.dfy ===
/** The item rows of the purchase-order and customer-order editors: a product, a
    quantity and a unit price, each set from one input (`handleItemChange(idx, field, value)`). */
module LineItems {
  /** Quantity and price hold what `Number(input)` gave. */
  datatype PricedItem = PricedItem(productId: string, quantity: real, price: real)

  /** The row `handleAddItem` appends: no product, quantity 1, price 0. */
  const NewPricedItem := PricedItem("", 1.0, 0.0)

  /** One field of an item and its new value. */
  datatype PricedEdit = SetProduct(productId: string) | SetQuantity(quantity: real) | SetPrice(price: real)

  function ApplyPricedEdit(item: PricedItem, e: PricedEdit): (r: PricedItem)
    ensures e.SetProduct? ==> r == PricedItem(e.productId, item.quantity, item.price)
    ensures e.SetQuantity? ==> r == PricedItem(item.productId, e.quantity, item.price)
    ensures e.SetPrice? ==> r == PricedItem(item.productId, item.quantity, e.price)
  {
    match e
    case SetProduct(p) => item.(productId := p)
    case SetQuantity(q) => item.(quantity := q)
    case SetPrice(p) => item.(price := p)
  }

  /** Setting a field twice keeps only the second value; setting different fields commutes. */
  lemma PricedEditsCompose(item: PricedItem, e1: PricedEdit, e2: PricedEdit)
    ensures e1.SetProduct? == e2.SetProduct? && e1.SetQuantity? == e2.SetQuantity? ==>
      ApplyPricedEdit(ApplyPricedEdit(item, e1), e2) == ApplyPricedEdit(item, e2)
    ensures e1.SetProduct? != e2.SetProduct? || e1.SetQuantity? != e2.SetQuantity? ==>
      ApplyPricedEdit(ApplyPricedEdit(item, e1), e2) == ApplyPricedEdit(ApplyPricedEdit(item, e2), e1)
  {
  }

  /** The stock-transfer row: a product and a quantity. */
  datatype TransferItem = TransferItem(productId: string, quantity: real)

  const NewTransferItem := TransferItem("", 1.0)

  datatype TransferEdit = SetTransferProduct(productId: string) | SetTransferQuantity(quantity: real)

  function ApplyTransferEdit(item: TransferItem, e: TransferEdit): (r: TransferItem)
    ensures e.SetTransferProduct? ==> r == TransferItem(e.productId, item.quantity)
    ensures e.SetTransferQuantity? ==> r == TransferItem(item.productId, e.quantity)
  {
    match e
    case SetTransferProduct(p) => item.(productId := p)
    case SetTransferQuantity(q) => item.(quantity := q)
  }
}

=== FILE: lookup.dfy ===
/** Foreign-key labels in the order screens: `list.find(x => x.key === id)?.name || id`
    (PurchaseOrderManagement, StockTransferManagement, OrderManagement). */
module Lookup {
  import opened Wrappers
  import Seqs

  /** A cached record reduced to its key (`id` or `_id`) and display name. */
  datatype Named = Named(key: string, name: string)

  /** The first cached record's name for `id` if there is one and it is non-empty,
      the raw id otherwise. */
  function LabelFor(entries: seq<Named>, id: string): (shown: string)
    ensures (forall i :: 0 <= i < |entries| ==> entries[i].key != id) ==> shown == id
    ensures forall i :: (0 <= i < |entries| && entries[i].key == id
      && (forall j :: 0 <= j < i ==> entries[j].key != id)) ==>
        shown == (if entries[i].name != "" then entries[i].name else id)
  {
    match Seqs.Find(entries, (e: Named) => e.key == id)
    case Some(e) => if e.name != "" then e.name else id
    case None => id
  }

  /** A label is either the raw id or the name of a record with that key. */
  lemma LabelIsIdOrName(entries: seq<Named>, id: string)
    ensures LabelFor(entries, id) == id
      || exists i :: 0 <= i < |entries| && entries[i].key == id && entries[i].name == LabelFor(entries, id)
  {
    var r := Seqs.Find(entries, (e: Named) => e.key == id);
    if r.Some? && r.value.name != "" {
      var i :| 0 <= i < |entries| && entries[i] == r.value && entries[i].key == id;
    }
  }
}

=== FILE: optimize.dfy ===
/** `GET /optimize` (ml-backend/main.py): stock per category against a 1.5 x minimum
    target, and reorder recommendations for products below their minimum. */
module Optimize {
  import opened Wrappers
  import opened ServerStore
  import Seqs

  /** The fields of a product document `/optimize` reads; None where the document
      has no such field. */
  datatype StockDoc = StockDoc(
    objectId: string,
    name: string,
    category: Option<string>,
    stock: Option<int>,
    minStock: Option<int>)

  function CategoryOf(d: StockDoc): string {
    d.category.GetOr("Uncategorized")
  }

  function StockOf(d: StockDoc): int {
    d.stock.GetOr(0)
  }

  function MinOf(d: StockDoc): int {
    d.minStock.GetOr(0)
  }

  /** The heuristic optimal stock level: one and a half times the minimum. */
  function OptimalOf(d: StockDoc): real {
    MinOf(d) as real * 1.5
  }

  /** One entry of `chart_data`. */
  datatype CategoryTotal = CategoryTotal(category: string, current: int, optimal: real)

  function Categories(ts: seq<CategoryTotal>): (cs: seq<string>)
    ensures |cs| == |ts|
    ensures forall i :: 0 <= i < |ts| ==> cs[i] == ts[i].category
  {
    seq(|ts|, i requires 0 <= i < |ts| => ts[i].category)
  }

  /** The category of every document, in collection order. */
  function CategoryList(docs: seq<StockDoc>): (cs: seq<string>)
    ensures |cs| == |docs|
    ensures forall i :: 0 <= i < |docs| ==> cs[i] == CategoryOf(docs[i])
  {
    seq(|docs|, i requires 0 <= i < |docs| => CategoryOf(docs[i]))
  }

  predicate Distinct(xs: seq<string>) {
    forall i, j :: 0 <= i < j < |xs| ==> xs[i] != xs[j]
  }

  /** The distinct elements of `xs` in order of first occurrence (the key order of
      a Python dict filled from `xs`). */
  function FirstSeen(xs: seq<string>): (r: seq<string>)
    ensures Distinct(r)
    ensures forall x :: x in r <==> x in xs
    decreases |xs|
  {
    if |xs| == 0 then []
    else
      var p := FirstSeen(xs[..|xs| - 1]);
      assert xs == xs[..|xs| - 1] + [xs[|xs| - 1]];
      if xs[|xs| - 1] in p then p else p + [xs[|xs| - 1]]
  }

  /** Sum of stock over the documents of category `c` (missing stock counts 0). */
  function SumStock(docs: seq<StockDoc>, c: string): int
    decreases |docs|
  {
    if |docs| == 0 then 0
    else
      var d := docs[|docs| - 1];
      SumStock(docs[..|docs| - 1], c) + (if CategoryOf(d) == c then StockOf(d) else 0)
  }

  /** Sum of 1.5 x minimum over the documents of category `c`. */
  function SumOptimal(docs: seq<StockDoc>, c: string): real
    decreases |docs|
  {
    if |docs| == 0 then 0.0
    else
      var d := docs[|docs| - 1];
      SumOptimal(docs[..|docs| - 1], c) + (if CategoryOf(d) == c then OptimalOf(d) else 0.0)
  }

  function TotalStock(docs: seq<StockDoc>): int
    decreases |docs|
  {
    if |docs| == 0 then 0 else TotalStock(docs[..|docs| - 1]) + StockOf(docs[|docs| - 1])
  }

  function TotalCurrent(ts: seq<CategoryTotal>): int
    decreases |ts|
  {
    if |ts| == 0 then 0 else ts[0].current + TotalCurrent(ts[1..])
  }

  lemma {:induction false} TotalCurrentAppend(ts: seq<CategoryTotal>, t: CategoryTotal)
    ensures TotalCurrent(ts + [t]) == TotalCurrent(ts) + t.current
    decreases |ts|
  {
    if |ts| > 0 {
      assert (ts + [t])[1..] == ts[1..] + [t];
      TotalCurrentAppend(ts[1..], t);
    }
  }

  /** A category that no document carries has empty sums. */
  lemma {:induction false} SumsOfAbsentCategory(docs: seq<StockDoc>, c: string)
    requires c !in CategoryList(docs)
    ensures SumStock(docs, c) == 0 && SumOptimal(docs, c) == 0.0
    decreases |docs|
  {
    if |docs| > 0 {
      var init := docs[..|docs| - 1];
      assert CategoryList(init) == CategoryList(docs)[..|docs| - 1];
      assert CategoryOf(docs[|docs| - 1]) == CategoryList(docs)[|docs| - 1];
      SumsOfAbsentCategory(init, c);
    }
  }

  /** Adds one document's stock and optimal level to the entry of its category,
      creating the entry at the end when the category is new. */
  function AddTo(acc: seq<CategoryTotal>, cat: string, s: int, o: real): (r: seq<CategoryTotal>)
    ensures |r| == if cat in Categories(acc) then |acc| else |acc| + 1
    decreases |acc|
  {
    if |acc| == 0 then
      [CategoryTotal(cat, s, o)]
    else if acc[0].category == cat then
      [acc[0].(current := acc[0].current + s, optimal := acc[0].optimal + o)] + acc[1..]
    else
      assert Categories(acc) == [acc[0].category] + Categories(acc[1..]);
      [acc[0]] + AddTo(acc[1..], cat, s, o)
  }

  /** A new category is appended as a fresh entry. */
  lemma {:induction false} AddToNewCategory(acc: seq<CategoryTotal>, cat: string, s: int, o: real)
    requires cat !in Categories(acc)
    ensures AddTo(acc, cat, s, o) == acc + [CategoryTotal(cat, s, o)]
    decreases |acc|
  {
    if |acc| > 0 {
      assert Categories(acc) == [acc[0].category] + Categories(acc[1..]);
      AddToNewCategory(acc[1..], cat, s, o);
      assert [acc[0]] + (acc[1..] + [CategoryTotal(cat, s, o)]) == acc + [CategoryTotal(cat, s, o)];
    }
  }

  /** A known category keeps the category list; a new one is appended to it. */
  lemma {:induction false} AddToCategories(acc: seq<CategoryTotal>, cat: string, s: int, o: real)
    ensures Categories(AddTo(acc, cat, s, o))
      == if cat in Categories(acc) then Categories(acc) else Categories(acc) + [cat]
    decreases |acc|
  {
    var r := AddTo(acc, cat, s, o);
    if cat !in Categories(acc) {
      AddToNewCategory(acc, cat, s, o);
      assert Categories(r) == Categories(acc) + [cat];
    } else if acc[0].category == cat {
      assert Categories(r) == Categories(acc);
    } else {
      assert Categories(acc) == [acc[0].category] + Categories(acc[1..]);
      AddToCategories(acc[1..], cat, s, o);
      assert Categories(r) == [acc[0].category] + Categories(AddTo(acc[1..], cat, s, o));
    }
  }

  lemma DistinctTail(acc: seq<CategoryTotal>)
    requires |acc| > 0 && Distinct(Categories(acc))
    ensures Distinct(Categories(acc[1..]))
  {
    var cs := Categories(acc);
    forall i, j | 0 <= i < j < |acc| - 1
      ensures Categories(acc[1..])[i] != Categories(acc[1..])[j]
    {
      assert cs[i + 1] != cs[j + 1];
    }
  }

  /** With distinct categories, the entry of `cat` grows by exactly `s` and `o`, and
      every other entry is untouched. */
  lemma {:induction false} AddToAt(acc: seq<CategoryTotal>, cat: string, s: int, o: real, i: nat)
    requires Distinct(Categories(acc))
    requires i < |acc|
    ensures AddTo(acc, cat, s, o)[i]
      == if acc[i].category == cat then CategoryTotal(cat, acc[i].current + s, acc[i].optimal + o)
         else acc[i]
    decreases |acc|
  {
    var r := AddTo(acc, cat, s, o);
    if acc[0].category == cat {
      if i > 0 {
        assert Categories(acc)[0] != Categories(acc)[i];
        assert r[i] == acc[1..][i - 1];
      }
    } else if i > 0 {
      DistinctTail(acc);
      AddToAt(acc[1..], cat, s, o, i - 1);
      assert r[i] == AddTo(acc[1..], cat, s, o)[i - 1];
    }
  }

  lemma {:induction false} AddToTotal(acc: seq<CategoryTotal>, cat: string, s: int, o: real)
    ensures TotalCurrent(AddTo(acc, cat, s, o)) == TotalCurrent(acc) + s
    decreases |acc|
  {
    if |acc| > 0 {
      if acc[0].category != cat {
        AddToTotal(acc[1..], cat, s, o);
        assert ([acc[0]] + AddTo(acc[1..], cat, s, o))[1..] == AddTo(acc[1..], cat, s, o);
      } else {
        var r := AddTo(acc, cat, s, o);
        assert r[1..] == acc[1..];
      }
    }
  }

  /** The `category_data` dictionary after the aggregation loop, as a list in key order. */
  function Aggregate(docs: seq<StockDoc>): (r: seq<CategoryTotal>)
    decreases |docs|
  {
    if |docs| == 0 then []
    else
      var d := docs[|docs| - 1];
      AddTo(Aggregate(docs[..|docs| - 1]), CategoryOf(d), StockOf(d), OptimalOf(d))
  }

  /** Each category occurs once in `chart_data`, in order of first occurrence. */
  lemma {:induction false} AggregateCategories(docs: seq<StockDoc>)
    ensures Categories(Aggregate(docs)) == FirstSeen(CategoryList(docs))
    decreases |docs|
  {
    if |docs| > 0 {
      var init := docs[..|docs| - 1];
      var d := docs[|docs| - 1];
      AggregateCategories(init);
      AddToCategories(Aggregate(init), CategoryOf(d), StockOf(d), OptimalOf(d));
      assert CategoryList(docs)[..|docs| - 1] == CategoryList(init);
    }
  }

  /** Entry `i` of the aggregate holds the sums over the documents of its category. */
  lemma {:induction false} AggregateSumAt(docs: seq<StockDoc>, i: nat)
    requires i < |Aggregate(docs)|
    ensures Aggregate(docs)[i].current == SumStock(docs, Aggregate(docs)[i].category)
    ensures Aggregate(docs)[i].optimal == SumOptimal(docs, Aggregate(docs)[i].category)
    decreases |docs|
  {
    var init := docs[..|docs| - 1];
    var d := docs[|docs| - 1];
    var acc := Aggregate(init);
    var c := CategoryOf(d);
    var r := Aggregate(docs);
    AggregateCategories(init);
    AddToCategories(acc, c, StockOf(d), OptimalOf(d));
    if i < |acc| {
      AggregateSumAt(init, i);
      AddToAt(acc, c, StockOf(d), OptimalOf(d), i);
    } else {
      assert c !in Categories(acc);
      assert CategoryList(docs)[..|docs| - 1] == CategoryList(init);
      assert c !in CategoryList(init);
      SumsOfAbsentCategory(init, c);
      AddToNewCategory(acc, c, StockOf(d), OptimalOf(d));
      assert r[i] == CategoryTotal(c, StockOf(d), OptimalOf(d));
    }
  }

  /** Each entry's `current` and `optimal` are the sums over the documents of its category. */
  lemma AggregateSums(docs: seq<StockDoc>)
    ensures forall i :: 0 <= i < |Aggregate(docs)| ==>
      && Aggregate(docs)[i].current == SumStock(docs, Aggregate(docs)[i].category)
      && Aggregate(docs)[i].optimal == SumOptimal(docs, Aggregate(docs)[i].category)
  {
    forall i | 0 <= i < |Aggregate(docs)|
      ensures Aggregate(docs)[i].current == SumStock(docs, Aggregate(docs)[i].category)
      ensures Aggregate(docs)[i].optimal == SumOptimal(docs, Aggregate(docs)[i].category)
    {
      AggregateSumAt(docs, i);
    }
  }

  /** The `current` totals over all categories add up to the total stock. */
  lemma {:induction false} AggregateTotal(docs: seq<StockDoc>)
    ensures TotalCurrent(Aggregate(docs)) == TotalStock(docs)
    decreases |docs|
  {
    if |docs| > 0 {
      var d := docs[|docs| - 1];
      AggregateTotal(docs[..|docs| - 1]);
      AddToTotal(Aggregate(docs[..|docs| - 1]), CategoryOf(d), StockOf(d), OptimalOf(d));
    }
  }

  datatype Priority = High | Medium | Low

  function PriorityName(p: Priority): string {
    match p
    case High => "high"
    case Medium => "medium"
    case Low => "low"
  }

  /** One entry of `reorder_recommendations`. */
  datatype Reorder = Reorder(
    productId: string,
    product: string,
    currentStock: int,
    reorderPoint: int,
    suggestedOrder: int,
    priority: Priority)

  predicate NeedsReorder(d: StockDoc) {
    StockOf(d) < MinOf(d)
  }

  /** The recommendation for one product, if it is below its minimum. */
  function ReorderFor(d: StockDoc): (r: Option<Reorder>)
    ensures r.Some? <==> StockOf(d) < MinOf(d)
    ensures r.Some? ==>
      && r.value.productId == d.objectId
      && r.value.product == d.name
      && r.value.currentStock == StockOf(d)
      && r.value.reorderPoint == MinOf(d)
    ensures r.Some? ==> r.value.suggestedOrder == Trunc(OptimalOf(d) - StockOf(d) as real)
    ensures r.Some? ==> (r.value.priority == High <==> 2 * StockOf(d) < MinOf(d))
    ensures r.Some? ==>
      (r.value.priority == Medium <==> MinOf(d) <= 2 * StockOf(d) && 4 * StockOf(d) < 3 * MinOf(d))
    ensures r.Some? ==> (r.value.priority == Low <==> 3 * MinOf(d) <= 4 * StockOf(d))
  {
    var s := StockOf(d);
    var m := MinOf(d);
    if s < m then
      var priority :=
        if (s as real) < m as real * 0.5 then High
        else if (s as real) < m as real * 0.75 then Medium
        else Low;
      Some(Reorder(d.objectId, d.name, s, m, Trunc(OptimalOf(d) - s as real), priority))
    else None
  }

  /** `reorder_recommendations`: one entry per product below its minimum, in
      collection order. */
  function Reorders(docs: seq<StockDoc>): (r: seq<Reorder>)
    ensures |r| == Seqs.Count(docs, NeedsReorder)
    ensures forall i :: 0 <= i < |r| ==> ReorderFor(Seqs.Filter(docs, NeedsReorder)[i]) == Some(r[i])
    ensures forall i :: 0 <= i < |r| ==>
      exists j :: 0 <= j < |docs| && NeedsReorder(docs[j]) && ReorderFor(docs[j]) == Some(r[i])
  {
    var below := Seqs.Filter(docs, NeedsReorder);
    seq(|below|, i requires 0 <= i < |below| => ReorderFor(below[i]).value)
  }

  /** Every product below its minimum gets a recommendation. */
  lemma EveryShortProductRecommended(docs: seq<StockDoc>, j: nat)
    requires j < |docs| && NeedsReorder(docs[j])
    ensures exists i :: 0 <= i < |Reorders(docs)| && Reorders(docs)[i] == ReorderFor(docs[j]).value
  {
    var below := Seqs.Filter(docs, NeedsReorder);
    assert docs[j] in below;
    var i :| 0 <= i < |below| && below[i] == docs[j];
    assert Reorders(docs)[i] == ReorderFor(docs[j]).value;
  }

  /** For a non-negative minimum, ordering the suggested quantity brings the product
      back to at least its minimum. */
  lemma SuggestedOrderRestoresMinimum(d: StockDoc)
    requires NeedsReorder(d) && MinOf(d) >= 0
    ensures StockOf(d) + ReorderFor(d).value.suggestedOrder >= MinOf(d)
  {
    var x := OptimalOf(d) - StockOf(d) as real;
    assert x >= (MinOf(d) - StockOf(d)) as real;
    assert x.Floor >= MinOf(d) - StockOf(d);
  }

  /** The `/optimize` reply. */
  datatype OptimizeReply = OptimizeReply(chartData: seq<CategoryTotal>, reorders: seq<Reorder>)

  function GetOptimization(docs: seq<StockDoc>): (r: OptimizeReply)
    ensures Distinct(Categories(r.chartData))
    ensures forall c :: c in Categories(r.chartData) <==> c in CategoryList(docs)
    ensures TotalCurrent(r.chartData) == TotalStock(docs)
    ensures |r.reorders| == Seqs.Count(docs, NeedsReorder)
    ensures r.chartData == Aggregate(docs) && r.reorders == Reorders(docs)
  {
    AggregateCategories(docs);
    AggregateTotal(docs);
    OptimizeReply(Aggregate(docs), Reorders(docs))
  }
}

=== FILE: product_api.dfy ===
/** The server's product endpoints (ml-backend/main.py): `POST /products`
    (`add_product`), `PUT /products/{id}` (`update_product`) and
    `DELETE /products/{id}` (`delete_product`) over an abstract collection. */
module ProductApi {
  import opened Wrappers
  import opened ServerStore
  import opened StockRules
  import Text

  /** Python `int(v)`; None where it raises. Strings are limited to plain decimal digits. */
  function PyInt(v: Value): (r: Option<Value>)
    ensures r.Some? ==> r.value.VInt?
    ensures v.VInt? ==> r == Some(v)
    ensures v.VNull? || v.VList? || v.VObject? || v.VOid? ==> r.None?
  {
    match v
    case VInt(_) => Some(v)
    case VFloat(x) => Some(VInt(Trunc(x)))
    case VBool(b) => Some(VInt(if b then 1 else 0))
    case VStr(s) => if Text.IsDigits(s) then Some(VInt(Text.DigitsValue(s))) else None
    case _ => None
  }

  /** Python `float(v)`; None where it raises. Strings are limited to plain decimal digits. */
  function PyFloat(v: Value): (r: Option<Value>)
    ensures r.Some? ==> r.value.VFloat?
    ensures v.VFloat? ==> r == Some(v)
    ensures v.VNull? || v.VList? || v.VObject? || v.VOid? ==> r.None?
  {
    match v
    case VInt(i) => Some(VFloat(i as real))
    case VFloat(_) => Some(v)
    case VBool(b) => Some(VFloat(if b then 1.0 else 0.0))
    case VStr(s) => if Text.IsDigits(s) then Some(VFloat(Text.DigitsValue(s) as real)) else None
    case _ => None
  }

  /** One round of the coercion loop: `price` through `float`, the others through `int`,
      and a value that fails to convert is left as it was. */
  function CoerceField(data: Record, field: string): (r: Record)
    ensures r.Keys == data.Keys
    ensures forall k :: k in data && k != field ==> r[k] == data[k]
    ensures field in data && field == "price" ==> r[field] == PyFloat(data[field]).GetOr(data[field])
    ensures field in data && field != "price" ==> r[field] == PyInt(data[field]).GetOr(data[field])
  {
    if field !in data then data
    else
      var converted := if field == "price" then PyFloat(data[field]) else PyInt(data[field]);
      match converted
      case Some(v) => data[field := v]
      case None => data
  }

  /** The coercion loop over `stock`, `price`, `min_stock`; it never adds or removes a field. */
  function CoerceNumbers(data: Record): (r: Record)
    ensures r.Keys == data.Keys
    ensures forall k :: k in data && k != "stock" && k != "price" && k != "min_stock" ==> r[k] == data[k]
  {
    CoerceField(CoerceField(CoerceField(data, "stock"), "price"), "min_stock")
  }

  const RequiredFields: seq<string> := ["name", "sku", "category", "stock", "price", "supplier"]

  /** The first of `fields` that `data` lacks, scanning in order. */
  function FirstMissing(data: Record, fields: seq<string>): (r: Option<string>)
    ensures r.None? <==> forall k :: 0 <= k < |fields| ==> fields[k] in data
    ensures r.Some? ==>
      exists k :: (0 <= k < |fields| && fields[k] == r.value && r.value !in data
        && forall j :: 0 <= j < k ==> fields[j] in data)
    decreases |fields|
  {
    if |fields| == 0 then None
    else if fields[0] !in data then Some(fields[0])
    else
      var r := FirstMissing(data, fields[1..]);
      if r.Some? then
        var k :| 0 <= k < |fields[1..]| && fields[1..][k] == r.value && r.value !in data
          && (forall j :: 0 <= j < k ==> fields[1..][j] in data);
        assert fields[k + 1] == r.value;
        r
      else r
  }

  /** The status assigned from `stock` and `min_stock` (each defaulting to 0); None where
      Python's comparison raises `TypeError` because one of them is not a number. */
  function StatusFor(data: Record): (r: Option<Status>)
    ensures r.Some? <==>
      (NumberOf(Get(data, "stock", VInt(0))).Some? && NumberOf(Get(data, "min_stock", VInt(0))).Some?)
    ensures r.Some? ==> r.value == Classify(NumberOf(Get(data, "stock", VInt(0))).value,
      NumberOf(Get(data, "min_stock", VInt(0))).value)
  {
    var stock := NumberOf(Get(data, "stock", VInt(0)));
    var minStock := NumberOf(Get(data, "min_stock", VInt(0)));
    if stock.Some? && minStock.Some? then Some(Classify(stock.value, minStock.value)) else None
  }

  function MissingFieldMessage(field: string): string {
    "Missing required field: " + field
  }

  /** The outcome of `add_product`: the stored product (as returned, without `_id`), the
      `{"error": ...}` body of a failed validation, or an uncaught exception. */
  datatype AddReply = Added(product: Record) | Rejected(error: string) | Crashed

  /** Adding to a validated document its status and, unless the body brought one, the
      generated sales history. */
  function Prepare(data: Record, s: Status, mockHistory: seq<Value>): (doc: Record)
    ensures doc.Keys == data.Keys + {"status", "sales_history"}
    ensures doc["status"] == VStr(StatusName(s))
    ensures doc["sales_history"] == (if "sales_history" in data then data["sales_history"] else VList(mockHistory))
    ensures forall k :: k in data && k != "status" ==> doc[k] == data[k]
  {
    var withStatus := data["status" := VStr(StatusName(s))];
    if "sales_history" in withStatus then withStatus
    else withStatus["sales_history" := VList(mockHistory)]
  }

  /** `insert_one`: the document goes in under its own `_id` if it brought one, else under
      the fresh ObjectId; a duplicate key raises. The reply omits `_id`. */
  function Insert(coll: Collection, doc: Record, freshId: string): (r: (AddReply, Collection))
    requires VOid(freshId) !in coll
    ensures r.0.Added? || r.0.Crashed?
    ensures r.0.Crashed? <==> "_id" in doc && doc["_id"] in coll
    ensures r.0.Crashed? ==> r.1 == coll
    ensures r.0.Added? ==>
      (r.0.product == Pop(doc, "_id") && exists key :: key !in coll && r.1 == coll[key := r.0.product])
    ensures "_id" !in doc ==> r.0.Added? && r.1 == coll[VOid(freshId) := doc]
  {
    var key := if "_id" in doc then doc["_id"] else VOid(freshId);
    if key in coll then (Crashed, coll)
    else
      var stored := Pop(doc, "_id");
      assert "_id" !in doc ==> stored == doc;
      (Added(stored), coll[key := stored])
  }

  /** Documents with the same fields lack the same first required field. */
  lemma {:induction false} FirstMissingByKeys(d1: Record, d2: Record, fields: seq<string>)
    requires d1.Keys == d2.Keys
    ensures FirstMissing(d1, fields) == FirstMissing(d2, fields)
    decreases |fields|
  {
    if |fields| > 0 {
      FirstMissingByKeys(d1, d2, fields[1..]);
    }
  }

  /** `add_product` after validation: classify, complete and insert the document. */
  function AddValidated(coll: Collection, data: Record, freshId: string, mockHistory: seq<Value>)
    : (r: (AddReply, Collection))
    requires VOid(freshId) !in coll
    ensures r.0.Added? || r.0.Crashed?
    ensures r.0.Crashed? <==> StatusFor(data).None? || ("_id" in data && data["_id"] in coll)
    ensures r.0.Crashed? ==> r.1 == coll
    ensures r.0.Added? ==> StatusFor(data).Some?
    ensures r.0.Added? ==> r.0.product == Pop(Prepare(data, StatusFor(data).value, mockHistory), "_id")
    ensures r.0.Added? ==> "_id" !in r.0.product && "status" in r.0.product && "sales_history" in r.0.product
    ensures r.0.Added? ==> r.0.product["status"] == VStr(StatusName(StatusFor(data).value))
    ensures r.0.Added? ==>
      r.0.product["sales_history"] == (if "sales_history" in data then data["sales_history"] else VList(mockHistory))
    ensures r.0.Added? ==> exists key :: key !in coll && r.1 == coll[key := r.0.product]
  {
    match StatusFor(data)
    case None => (Crashed, coll)
    case Some(s) =>
      var doc := Prepare(data, s, mockHistory);
      Insert(coll, doc, freshId)
  }

  /** `POST /products`. `freshId` is the ObjectId MongoDB assigns and `mockHistory` the
      randomly generated six-month sales history. */
  function AddProduct(coll: Collection, body: Record, freshId: string, mockHistory: seq<Value>)
    : (r: (AddReply, Collection))
    requires VOid(freshId) !in coll
    ensures r.0.Rejected? <==> FirstMissing(body, RequiredFields).Some?
    ensures r.0.Rejected? ==> r.0.error == MissingFieldMessage(FirstMissing(body, RequiredFields).value)
    ensures r.0.Crashed? <==>
      && FirstMissing(body, RequiredFields).None?
      && (StatusFor(CoerceNumbers(body)).None? || ("_id" in body && body["_id"] in coll))
    ensures !r.0.Added? ==> r.1 == coll
    ensures r.0.Added? ==> "_id" !in r.0.product && StatusFor(CoerceNumbers(body)).Some?
    ensures r.0.Added? ==>
      r.0.product == Pop(Prepare(CoerceNumbers(body), StatusFor(CoerceNumbers(body)).value, mockHistory), "_id")
    ensures r.0.Added? ==> "status" in r.0.product && "sales_history" in r.0.product
    ensures r.0.Added? ==> r.0.product["status"] == VStr(StatusName(StatusFor(CoerceNumbers(body)).value))
    ensures r.0.Added? ==>
      r.0.product["sales_history"] == (if "sales_history" in body then body["sales_history"] else VList(mockHistory))
    ensures r.0.Added? ==> exists key :: key !in coll && r.1 == coll[key := r.0.product]
  {
    var data := CoerceNumbers(body);
    FirstMissingByKeys(data, body, RequiredFields);
    assert "sales_history" in body ==> data["sales_history"] == body["sales_history"];
    assert "_id" in body ==> data["_id"] == body["_id"];
    match FirstMissing(data, RequiredFields)
    case Some(f) => (Rejected(MissingFieldMessage(f)), coll)
    case None => AddValidated(coll, data, freshId, mockHistory)
  }

  /** The document `add_product` stores for a body: every field the body sent except
      `_id`, plus `status` and `sales_history`; fields other than the three numeric ones
      and `status` keep the values the body sent. */
  lemma StoredDocument(body: Record, s: Status, mockHistory: seq<Value>)
    ensures var stored := Pop(Prepare(CoerceNumbers(body), s, mockHistory), "_id");
      stored.Keys == body.Keys - {"_id"} + {"status", "sales_history"}
    ensures var stored := Pop(Prepare(CoerceNumbers(body), s, mockHistory), "_id");
      forall k :: k in body && k !in {"stock", "price", "min_stock", "status", "_id"} ==> stored[k] == body[k]
  {
    var data := CoerceNumbers(body);
    var doc := Prepare(data, s, mockHistory);
    var stored := Pop(doc, "_id");
    assert stored.Keys == body.Keys - {"_id"} + {"status", "sales_history"};
    forall k | k in body && k !in {"stock", "price", "min_stock", "status", "_id"}
      ensures stored[k] == body[k]
    {
      assert stored[k] == doc[k] == data[k];
    }
  }

  /** A product `add_product` stores keeps the body's fields, as StoredDocument states. */
  lemma AddStoresBody(coll: Collection, body: Record, freshId: string, mockHistory: seq<Value>)
    requires VOid(freshId) !in coll
    requires AddProduct(coll, body, freshId, mockHistory).0.Added?
    ensures var stored := AddProduct(coll, body, freshId, mockHistory).0.product;
      stored.Keys == body.Keys - {"_id"} + {"status", "sales_history"}
    ensures var stored := AddProduct(coll, body, freshId, mockHistory).0.product;
      forall k :: k in body && k !in {"stock", "price", "min_stock", "status", "_id"} ==> stored[k] == body[k]
  {
    StoredDocument(body, StatusFor(CoerceNumbers(body)).value, mockHistory);
  }

  /** `min_stock` is not required: a body with the six required fields, a whole-number
      stock and no `min_stock` is stored, classified against a minimum of 0. */
  lemma MinStockOptional(coll: Collection, body: Record, freshId: string, mockHistory: seq<Value>)
    requires VOid(freshId) !in coll
    requires forall f :: f in RequiredFields ==> f in body
    requires "min_stock" !in body && "_id" !in body
    requires body["stock"].VInt?
    ensures AddProduct(coll, body, freshId, mockHistory).0.Added?
    ensures AddProduct(coll, body, freshId, mockHistory).0.product["status"]
      == VStr(StatusName(Classify(body["stock"].i as real, 0.0)))
  {
    assert forall k :: 0 <= k < |RequiredFields| ==> RequiredFields[k] in body;
    IntStockWithoutMinimum(body);
  }

  /** A whole-number stock survives the coercion, and a missing minimum counts as 0. */
  lemma IntStockWithoutMinimum(body: Record)
    requires "stock" in body && body["stock"].VInt? && "min_stock" !in body
    ensures StatusFor(CoerceNumbers(body)) == Some(Classify(body["stock"].i as real, 0.0))
  {
    var data := CoerceNumbers(body);
    assert data["stock"] == body["stock"];
    assert "min_stock" !in data;
  }

  /** `PUT /products/{id}`. */
  function UpdateProduct(coll: Collection, productId: string, body: Record): (r: (Reply<string>, Collection))
    ensures !IsObjectIdText(productId) ==> r.0 == HttpError(404, "Product not found")
    ensures IsObjectIdText(productId) && StatusFor(Pop(body, "_id")).None? ==> r.0 == HttpError(500, InternalError)
    ensures r.0.Ok? <==>
      IsObjectIdText(productId) && VOid(Text.Lower(productId)) in coll && StatusFor(Pop(body, "_id")).Some?
    ensures r.0.Ok? ==> r.0.body == "Product updated successfully"
    ensures r.0.HttpError? ==> r.1 == coll
    ensures (IsObjectIdText(productId) && StatusFor(Pop(body, "_id")).Some?
      && VOid(Text.Lower(productId)) !in coll) ==> r.0 == HttpError(404, "Product not found")
    ensures r.0.Ok? ==>
      var key := VOid(Text.Lower(productId));
      var data := Pop(body, "_id");
      && key in coll
      && StatusFor(data).Some?
      && r.1 == coll[key := coll[key] + data["status" := VStr(StatusName(StatusFor(data).value))]]
  {
    match ParseObjectId(productId)
    case None => (HttpError(404, "Product not found"), coll)
    case Some(key) =>
      var data := Pop(body, "_id");
      match StatusFor(data)
      case None => (HttpError(500, InternalError), coll)
      case Some(s) =>
        if key !in coll then (HttpError(404, "Product not found"), coll)
        else (Ok("Product updated successfully"), coll[key := coll[key] + data["status" := VStr(StatusName(s))]])
  }

  /** An update overwrites `status` from the body's own levels (0 when absent), so a body
      carrying neither `stock` nor `min_stock` marks the product Critical; only that one
      document changes and its `_id` cannot be rewritten. */
  lemma UpdateWithoutLevelsIsCritical(coll: Collection, productId: string, body: Record)
    requires IsObjectIdText(productId) && VOid(Text.Lower(productId)) in coll
    requires "stock" !in body && "min_stock" !in body
    ensures UpdateProduct(coll, productId, body).0.Ok?
    ensures UpdateProduct(coll, productId, body).1[VOid(Text.Lower(productId))]["status"] == VStr("Critical")
    ensures var key := VOid(Text.Lower(productId));
      "_id" in coll[key] ==> UpdateProduct(coll, productId, body).1[key]["_id"] == coll[key]["_id"]
    ensures forall k :: k in coll && k != VOid(Text.Lower(productId)) ==>
      k in UpdateProduct(coll, productId, body).1 && UpdateProduct(coll, productId, body).1[k] == coll[k]
  {
    var data := Pop(body, "_id");
    assert "_id" !in data;
    assert Get(data, "stock", VInt(0)) == VInt(0);
    assert Get(data, "min_stock", VInt(0)) == VInt(0);
    assert Classify(0.0, 0.0) == Critical;
  }

  /** `DELETE /products/{id}`. */
  function DeleteProduct(coll: Collection, productId: string): (r: (Reply<string>, Collection))
    ensures r.0.Ok? <==> IsObjectIdText(productId) && VOid(Text.Lower(productId)) in coll
    ensures r.0.HttpError? ==> r.0 == HttpError(404, "Product not found") && r.1 == coll
    ensures r.0.Ok? ==> r.1 == coll - {VOid(Text.Lower(productId))} && |r.1| == |coll| - 1
  {
    match ParseObjectId(productId)
    case None => (HttpError(404, "Product not found"), coll)
    case Some(key) =>
      if key !in coll then (HttpError(404, "Product not found"), coll)
      else (Ok("Product deleted successfully"), coll - {key})
  }
}

=== FILE: product_dialog.dfy ===
/** The add/edit dialog of src/components/ProductDialog.tsx: the form state it opens
    with, numeric input parsing, and the product it hands to `onSave`. The clock is
    a parameter: `nowMillis` is `Date.now()` and `today` the ISO date of `new Date()`. */
module ProductDialog {
  import opened Wrappers
  import opened Products
  import Text

  /** The seven editable fields. */
  datatype ProductForm = ProductForm(
    name: string,
    category: string,
    sku: string,
    stock: int,
    minStock: int,
    price: real,
    supplier: string)

  const EmptyForm := ProductForm("", "Electronics", "", 0, 0, 0.0, "")

  /** The form the dialog shows when it opens: the product's fields when editing,
      the defaults when adding. */
  function FormFor(product: Option<Product>): (f: ProductForm)
    ensures product.None? ==> f == EmptyForm
    ensures product.Some? ==>
      && f.name == product.value.name && f.category == product.value.category
      && f.sku == product.value.sku && f.stock == product.value.stock
      && f.minStock == product.value.minStock && f.price == product.value.price
      && f.supplier == product.value.supplier
  {
    match product
    case None => EmptyForm
    case Some(p) => ProductForm(p.name, p.category, p.sku, p.stock, p.minStock, p.price, p.supplier)
  }

  /** The longest prefix of `s` made of decimal digits. */
  function LeadingDigits(s: string): (d: string)
    ensures |d| <= |s| && d == s[..|d|]
    ensures forall i :: 0 <= i < |d| ==> Text.IsDigit(d[i])
    ensures |d| < |s| ==> !Text.IsDigit(s[|d|])
    decreases |s|
  {
    if |s| == 0 || !Text.IsDigit(s[0]) then ""
    else [s[0]] + LeadingDigits(s[1..])
  }

  /** The part of an input after leading white space and an optional sign, and
      whether the sign was a minus. */
  function Unsigned(s: string): (string, bool) {
    var t := Text.TrimStart(s);
    if |t| > 0 && (t[0] == '-' || t[0] == '+') then (t[1..], t[0] == '-') else (t, false)
  }

  /** `parseInt(value) || 0`: the leading integer of the input, 0 when there is none. */
  function ParseIntOr0(s: string): (n: int)
    ensures LeadingDigits(Unsigned(s).0) == "" ==> n == 0
    ensures Text.IsDigits(s) ==> n == Text.DigitsValue(s)
  {
    var (body, negative) := Unsigned(s);
    var d := LeadingDigits(body);
    DigitsUnsigned(s);
    if d == "" then 0
    else if negative then -(Text.DigitsValue(d) as int)
    else Text.DigitsValue(d)
  }

  lemma {:induction false} LeadingDigitsOfDigits(s: string)
    requires forall i :: 0 <= i < |s| ==> Text.IsDigit(s[i])
    ensures LeadingDigits(s) == s
    decreases |s|
  {
    if |s| > 0 {
      LeadingDigitsOfDigits(s[1..]);
    }
  }

  /** A plain digit string is its own unsigned part and its own leading integer. */
  lemma DigitsUnsigned(s: string)
    ensures Text.IsDigits(s) ==> Unsigned(s) == (s, false) && LeadingDigits(s) == s
  {
    if Text.IsDigits(s) {
      assert Text.TrimStart(s) == s;
      LeadingDigitsOfDigits(s);
    }
  }

  /** The value of a fraction's digits: "25" is 0.25. */
  function FractionValue(d: string): real
    requires forall i :: 0 <= i < |d| ==> Text.IsDigit(d[i])
  {
    Text.DigitsValue(d) as real / Text.Pow10(|d|) as real
  }

  /** `parseFloat(value) || 0` for inputs of the form digits[.digits]: 0 when no digit
      is found. Exponents are not modelled. */
  function ParseFloatOr0(s: string): (x: real)
    ensures Text.IsDigits(s) ==> x == Text.DigitsValue(s) as real
    ensures LeadingDigits(Unsigned(s).0) == "" && (|Unsigned(s).0| == 0 || Unsigned(s).0[0] != '.') ==> x == 0.0
  {
    var (body, negative) := Unsigned(s);
    var whole := LeadingDigits(body);
    var rest := body[|whole|..];
    var frac := if |rest| > 0 && rest[0] == '.' then LeadingDigits(rest[1..]) else "";
    DigitsUnsigned(s);
    if whole == "" && frac == "" then 0.0
    else
      var v := Text.DigitsValue(whole) as real + FractionValue(frac);
      if negative then -v else v
  }

  /** Leading digits stop at the first character that is not a digit. */
  lemma {:induction false} LeadingDigitsStop(w: string, rest: string)
    requires forall i :: 0 <= i < |w| ==> Text.IsDigit(w[i])
    requires rest == [] || !Text.IsDigit(rest[0])
    ensures LeadingDigits(w + rest) == w
    decreases |w|
  {
    if |w| > 0 {
      assert (w + rest)[1..] == w[1..] + rest;
      LeadingDigitsStop(w[1..], rest);
    } else {
      assert w + rest == rest;
    }
  }

  /** An entry starting with a sign: the rest is the unsigned part. */
  lemma UnsignedOfSigned(c: char, u: string)
    requires c == '-' || c == '+'
    ensures Unsigned([c] + u) == (u, c == '-')
  {
    assert Text.TrimStart([c] + u) == [c] + u;
    assert ([c] + u)[1..] == u;
  }

  /** An entry starting with a digit is its own unsigned part. */
  lemma UnsignedOfDigitFirst(s: string)
    requires |s| > 0 && Text.IsDigit(s[0])
    ensures Unsigned(s) == (s, false)
  {
    assert !Text.IsSpace(s[0]) && s[0] != '-' && s[0] != '+';
    assert Text.TrimStart(s) == s;
  }

  /** A signed entry such as "-3" or "+3" reads as its signed value. */
  lemma ParseIntSigned(d: string)
    requires Text.IsDigits(d)
    ensures ParseIntOr0("-" + d) == -(Text.DigitsValue(d) as int)
    ensures ParseIntOr0("+" + d) == Text.DigitsValue(d)
  {
    LeadingDigitsOfDigits(d);
    UnsignedOfSigned('-', d);
    UnsignedOfSigned('+', d);
  }

  /** The whole part of "w.d" is w and its fraction digits are d. */
  lemma DecimalParts(w: string, d: string)
    requires Text.IsDigits(w) && Text.IsDigits(d)
    ensures LeadingDigits(w + "." + d) == w
    ensures var rest := (w + "." + d)[|w|..]; |rest| > 0 && rest[0] == '.' && LeadingDigits(rest[1..]) == d
  {
    LeadingDigitsOfDigits(d);
    assert w + "." + d == w + ("." + d);
    LeadingDigitsStop(w, "." + d);
    assert (w + "." + d)[|w|..] == "." + d;
    assert ("." + d)[1..] == d;
  }

  /** A decimal entry such as "12.99" reads as its whole part plus its fraction, and
      "-12.99" as the negation of that. */
  lemma ParseFloatDecimal(w: string, d: string)
    requires Text.IsDigits(w) && Text.IsDigits(d)
    ensures ParseFloatOr0(w + "." + d) == Text.DigitsValue(w) as real + FractionValue(d)
    ensures ParseFloatOr0("-" + w + "." + d) == -(Text.DigitsValue(w) as real + FractionValue(d))
  {
    var s := w + "." + d;
    DecimalParts(w, d);
    UnsignedOfDigitFirst(s);
    assert "-" + w + "." + d == ['-'] + s;
    UnsignedOfSigned('-', s);
  }

  /** The id of a new product: "P" and the last three digits of the timestamp,
      zero-padded to three. */
  function NewId(nowMillis: nat): string {
    "P" + Text.PadStart(Text.TakeLast(Text.NatToString(nowMillis), 3), 3, '0')
  }

  /** The last three digits of a number's rendering denote it modulo 1000. */
  lemma LastThreeDigits(n: nat)
    ensures Text.DigitsValue(Text.TakeLast(Text.NatToString(n), 3)) == n % 1000
  {
    var s := Text.NatToString(n);
    var last := Text.TakeLast(s, 3);
    Text.DigitsValueSuffix(s, |last|);
    if |s| < 3 {
      NatToStringBound(n);
      assert Text.Pow10(|s|) <= 1000 by {
        assert Text.Pow10(1) == 10 && Text.Pow10(2) == 100;
      }
    } else {
      assert Text.Pow10(3) == 1000;
    }
  }

  /** A new id has four characters, "P" then three digits denoting the timestamp
      modulo 1000. */
  lemma NewIdShape(nowMillis: nat)
    ensures |NewId(nowMillis)| == 4 && NewId(nowMillis)[0] == 'P'
    ensures Text.IsDigits(NewId(nowMillis)[1..])
    ensures Text.DigitsValue(NewId(nowMillis)[1..]) == nowMillis % 1000
  {
    var last := Text.TakeLast(Text.NatToString(nowMillis), 3);
    Text.PadStartKeepsValue(last, 3);
    LastThreeDigits(nowMillis);
    assert NewId(nowMillis)[1..] == Text.PadStart(last, 3, '0');
  }

  /** A number's decimal rendering has just enough digits. */
  lemma {:induction false} NatToStringBound(n: nat)
    ensures n < Text.Pow10(|Text.NatToString(n)|)
    decreases n
  {
    if n >= 10 {
      NatToStringBound(n / 10);
    }
  }

  /** The dialog's status rule: never "Critical". */
  function DialogStatus(f: ProductForm): (s: string)
    ensures s == "Low Stock" <==> f.stock <= f.minStock
    ensures s == "In Stock" <==> f.stock > f.minStock
  {
    if f.stock <= f.minStock then "Low Stock" else "In Stock"
  }

  /** The required fields are filled in. */
  predicate Complete(f: ProductForm) {
    f.name != "" && f.sku != "" && f.supplier != ""
  }

  /** `handleSave`'s product: None when a required field is empty. When editing, `_id`,
      `id` and `lastRestocked` come from the original, the seven form fields from the form. */
  function BuildProduct(f: ProductForm, original: Option<Product>, nowMillis: nat, today: string): (r: Option<Product>)
    ensures r.None? <==> !Complete(f)
    ensures r.Some? ==>
      && r.value.name == f.name && r.value.category == f.category && r.value.sku == f.sku
      && r.value.stock == f.stock && r.value.minStock == f.minStock && r.value.price == f.price
      && r.value.supplier == f.supplier
    ensures r.Some? ==> r.value.objectId == (if original.Some? then original.value.objectId else None)
    ensures r.Some? ==> r.value.id.Some?
    ensures r.Some? && original.Some? && Truthy(original.value.id) ==> r.value.id == original.value.id
    ensures r.Some? && !(original.Some? && Truthy(original.value.id)) ==> r.value.id == Some(NewId(nowMillis))
    ensures r.Some? ==>
      r.value.lastRestocked ==
        (if original.Some? && original.value.lastRestocked != "" then original.value.lastRestocked else today)
    ensures r.Some? ==> (r.value.status == "Low Stock" <==> f.stock <= f.minStock)
    ensures r.Some? ==> r.value.status != "Critical"
    ensures r.Some? ==> r.value.salesHistory.None?
  {
    if !Complete(f) then None
    else
      var objectId := if original.Some? then original.value.objectId else None;
      var id := if original.Some? && Truthy(original.value.id) then original.value.id else Some(NewId(nowMillis));
      var restocked :=
        if original.Some? && original.value.lastRestocked != "" then original.value.lastRestocked else today;
      Some(Product(objectId, id, f.name, f.category, f.sku, f.stock, f.minStock, f.price, f.supplier,
                   restocked, DialogStatus(f), None))
  }

  /** Saving an unchanged edit form gives the product back, with the dialog's status
      and without its sales history. */
  lemma EditUnchangedRoundTrip(p: Product, nowMillis: nat, today: string)
    requires p.name != "" && p.sku != "" && p.supplier != ""
    requires Truthy(p.id) && p.lastRestocked != ""
    ensures BuildProduct(FormFor(Some(p)), Some(p), nowMillis, today)
      == Some(p.(status := DialogStatus(FormFor(Some(p))), salesHistory := None))
  {
  }

  /** What a click on Save does: the product handed to `onSave` (at most one) and
      whether the dialog stays open. */
  datatype SaveOutcome = SaveOutcome(saved: Option<Product>, open: bool)

  function HandleSave(f: ProductForm, original: Option<Product>, nowMillis: nat, today: string): (r: SaveOutcome)
    ensures r.saved.Some? <==> Complete(f)
    ensures r.open <==> !Complete(f)
    ensures r.saved == BuildProduct(f, original, nowMillis, today)
  {
    var p := BuildProduct(f, original, nowMillis, today);
    SaveOutcome(p, p.None?)
  }
}

=== FILE: product_management.dfy ===
/** The product table of src/components/ProductManagement.tsx: search and category
    filter, CSV export and import, the cache append after an import, delete with
    its snapshot restore, save dispatch and the status counts. The query cache is
    an optional list (None before the first fetch); requests are outcomes passed in. */
module ProductManagement {
  import opened Wrappers
  import opened Products
  import opened StockRules
  import Seqs
  import Text

  // ---------------------------------------------------------------- filter

  /** The lower-cased name or SKU contains the lower-cased search term. */
  predicate MatchesSearch(p: Product, term: string) {
    || Text.Includes(Text.Lower(p.name), Text.Lower(term))
    || Text.Includes(Text.Lower(p.sku), Text.Lower(term))
  }

  /** "all" selects every category; anything else only that category. */
  predicate MatchesCategory(p: Product, category: string) {
    category == "all" || p.category == category
  }

  function Matcher(term: string, category: string): Product -> bool {
    p => MatchesSearch(p, term) && MatchesCategory(p, category)
  }

  /** `filteredProducts`. */
  function FilterProducts(ps: seq<Product>, term: string, category: string): (r: seq<Product>)
    ensures forall p :: p in r <==> p in ps && MatchesSearch(p, term) && MatchesCategory(p, category)
    ensures Seqs.IsSublist(r, ps)
    ensures forall p :: multiset(r)[p] == (if MatchesSearch(p, term) && MatchesCategory(p, category)
      then multiset(ps)[p] else 0)
  {
    Seqs.FilterMultiset(ps, Matcher(term, category));
    Seqs.Filter(ps, Matcher(term, category))
  }

  /** With no search term and category "all" the table shows every product, in order. */
  lemma EmptySearchShowsAll(ps: seq<Product>)
    ensures FilterProducts(ps, "", "all") == ps
  {
    forall i | 0 <= i < |ps|
      ensures Matcher("", "all")(ps[i])
    {
      assert Text.OccursAt(Text.Lower(ps[i].name), Text.Lower(""), 0);
    }
    Seqs.FilterAll(ps, Matcher("", "all"));
  }

  // ---------------------------------------------------------------- CSV export

  const CsvHeaders: seq<string> :=
    ["ID", "Name", "Category", "SKU", "Stock", "Min Stock", "Price", "Supplier", "Last Restocked", "Status"]

  /** A template literal of a possibly undefined string. */
  function ShowOptional(s: Option<string>): string {
    match s
    case Some(v) => v
    case None => "undefined"
  }

  /** The ten exported values of a product, in column order. `showPrice` stands for
      JavaScript's rendering of a number, which is not modelled. */
  function ExportFields(p: Product, showPrice: real -> string): (fs: seq<string>)
    ensures |fs| == |CsvHeaders|
    ensures fs[0] == ShowOptional(p.id) && fs[1] == p.name && fs[2] == p.category && fs[3] == p.sku
    ensures fs[4] == Text.IntToString(p.stock) && fs[5] == Text.IntToString(p.minStock) && fs[6] == showPrice(p.price)
    ensures fs[7] == p.supplier && fs[8] == p.lastRestocked && fs[9] == p.status
  {
    [ ShowOptional(p.id), p.name, p.category, p.sku,
      Text.IntToString(p.stock), Text.IntToString(p.minStock), showPrice(p.price),
      p.supplier, p.lastRestocked, p.status ]
  }

  /** A field wrapped in double quotes; quotes inside it are not doubled. */
  function Quote(f: string): (q: string)
    ensures |q| == |f| + 2 && q[0] == '"' && q[|q| - 1] == '"' && q[1..|q| - 1] == f
  {
    "\"" + f + "\""
  }

  function QuoteAll(fs: seq<string>): (qs: seq<string>)
    ensures |qs| == |fs|
    ensures forall k :: 0 <= k < |fs| ==> qs[k] == Quote(fs[k])
  {
    seq(|fs|, k requires 0 <= k < |fs| => Quote(fs[k]))
  }

  /** One CSV line: the quoted fields joined by commas. */
  function CsvLine(fs: seq<string>): string {
    Text.Join(QuoteAll(fs), ',')
  }

  /** The line of one product. */
  function ProductLine(p: Product, showPrice: real -> string): string {
    CsvLine(ExportFields(p, showPrice))
  }

  function HeaderLine(): string {
    CsvLine(CsvHeaders)
  }

  function ProductLines(ps: seq<Product>, showPrice: real -> string): (ls: seq<string>)
    ensures |ls| == |ps|
    ensures forall i :: 0 <= i < |ps| ==> ls[i] == ProductLine(ps[i], showPrice)
  {
    seq(|ps|, i requires 0 <= i < |ps| => ProductLine(ps[i], showPrice))
  }

  /** The header line followed by one line per product. */
  function ExportLines(ps: seq<Product>, showPrice: real -> string): (ls: seq<string>)
    ensures |ls| == |ps| + 1
    ensures ls[0] == HeaderLine() && ls[1..] == ProductLines(ps, showPrice)
    ensures forall i :: 1 <= i <= |ps| ==> ls[i] == ProductLine(ps[i - 1], showPrice)
  {
    [HeaderLine()] + ProductLines(ps, showPrice)
  }

  /** `handleExport`'s file content for the filtered products. */
  function ExportCsv(ps: seq<Product>, showPrice: real -> string): string {
    Text.Join(ExportLines(ps, showPrice), '\n')
  }

  /** No exported value contains the character `c`. */
  predicate FieldsAvoid(ps: seq<Product>, showPrice: real -> string, c: char) {
    forall i, k :: 0 <= i < |ps| && 0 <= k < |CsvHeaders| ==> c !in ExportFields(ps[i], showPrice)[k]
  }

  /** A field list free of `c` gives a CSV line free of `c`, for any `c` other than
      the comma and the quote. */
  lemma CsvLineAvoids(fs: seq<string>, c: char)
    requires c != ',' && c != '"'
    requires forall k :: 0 <= k < |fs| ==> c !in fs[k]
    ensures c !in CsvLine(fs)
  {
    forall k | 0 <= k < |fs|
      ensures c !in QuoteAll(fs)[k]
    {
      assert QuoteAll(fs)[k] == ['"'] + fs[k] + ['"'];
    }
    Text.JoinExcludes(QuoteAll(fs), ',', c);
  }

  /** No column title holds a line break. */
  lemma HeadersAvoidLineBreak()
    ensures forall k :: 0 <= k < |CsvHeaders| ==> '\n' !in CsvHeaders[k]
  {
    forall k | 0 <= k < |CsvHeaders|
      ensures '\n' !in CsvHeaders[k]
    {
    }
  }

  /** The header line holds no line break. */
  lemma HeaderOneLine()
    ensures '\n' !in HeaderLine()
  {
    HeadersAvoidLineBreak();
    CsvLineAvoids(CsvHeaders, '\n');
  }

  /** When no value contains a line break, the file consists of exactly n + 1 lines:
      the header and one per product. */
  lemma ExportLineCount(ps: seq<Product>, showPrice: real -> string)
    requires FieldsAvoid(ps, showPrice, '\n')
    ensures Text.Split(ExportCsv(ps, showPrice), '\n') == ExportLines(ps, showPrice)
    ensures |Text.Split(ExportCsv(ps, showPrice), '\n')| == |ps| + 1
  {
    var ls := ExportLines(ps, showPrice);
    forall k | 0 <= k < |ls|
      ensures '\n' !in ls[k]
    {
      if k == 0 {
        HeaderOneLine();
      } else {
        var fs := ExportFields(ps[k - 1], showPrice);
        assert forall j :: 0 <= j < |fs| ==> '\n' !in fs[j];
        CsvLineAvoids(fs, '\n');
        assert ls[k] == CsvLine(fs);
      }
    }
    Text.SplitJoin(ls, '\n');
  }

  /** When no value contains a comma, splitting an exported line at commas gives the
      quoted values back. */
  lemma CsvLineCells(fs: seq<string>)
    requires |fs| >= 1
    requires forall k :: 0 <= k < |fs| ==> ',' !in fs[k]
    ensures Text.Split(CsvLine(fs), ',') == QuoteAll(fs)
  {
    forall k | 0 <= k < |fs|
      ensures ',' !in QuoteAll(fs)[k]
    {
      assert QuoteAll(fs)[k] == ['"'] + fs[k] + ['"'];
    }
    Text.SplitJoin(QuoteAll(fs), ',');
  }

  // ---------------------------------------------------------------- CSV import

  /** A JavaScript number as far as the import produces one. */
  datatype Num = Finite(value: real) | NaN

  /** `Number(cell)`: undefined is NaN, a blank string is 0, a decimal digit string
      (surrounding white space allowed) is its value; every other string is NaN here. */
  function ToNumber(cell: Option<string>): (n: Num)
    ensures cell.None? ==> n == NaN
    ensures cell.Some? && Text.AllSpace(cell.value) ==> n == Finite(0.0)
    ensures cell.Some? && Text.IsDigits(cell.value) ==> n == Finite(Text.DigitsValue(cell.value) as real)
    ensures cell.Some? && |cell.value| > 0 && cell.value[0] == '"' ==> n == NaN
  {
    match cell
    case None => NaN
    case Some(s) =>
      var t := Text.Trim(s);
      Text.TrimEmptyIffAllSpace(s);
      Text.TrimKeepsFirst(s);
      Text.TrimDigits(s);
      if t == "" then Finite(0.0)
      else if Text.IsDigits(t) then Finite(Text.DigitsValue(t) as real)
      else NaN
  }

  /** A product as the CSV branch builds it: a short line leaves trailing fields undefined. */
  datatype ImportedProduct = ImportedProduct(
    id: Option<string>,
    name: Option<string>,
    category: Option<string>,
    sku: Option<string>,
    stock: Num,
    minStock: Num,
    price: Num,
    supplier: Option<string>,
    lastRestocked: Option<string>,
    status: Option<string>)

  /** Array destructuring: the k-th cell, or undefined past the end. */
  function Cell(cells: seq<string>, k: nat): (c: Option<string>)
    ensures c.Some? <==> k < |cells|
    ensures k < |cells| ==> c.value == cells[k]
  {
    if k < |cells| then Some(cells[k]) else None
  }

  /** One data line split at commas and assigned positionally. */
  function ParseRow(line: string): (p: ImportedProduct)
    ensures var cells := Text.Split(line, ',');
      && p.id == Some(cells[0])
      && p.name == Cell(cells, 1) && p.category == Cell(cells, 2) && p.sku == Cell(cells, 3)
      && p.stock == ToNumber(Cell(cells, 4)) && p.minStock == ToNumber(Cell(cells, 5))
      && p.price == ToNumber(Cell(cells, 6))
      && p.supplier == Cell(cells, 7) && p.lastRestocked == Cell(cells, 8) && p.status == Cell(cells, 9)
  {
    var cells := Text.Split(line, ',');
    ImportedProduct(
      Cell(cells, 0), Cell(cells, 1), Cell(cells, 2), Cell(cells, 3),
      ToNumber(Cell(cells, 4)), ToNumber(Cell(cells, 5)), ToNumber(Cell(cells, 6)),
      Cell(cells, 7), Cell(cells, 8), Cell(cells, 9))
  }

  predicate HasId(p: ImportedProduct) {
    Truthy(p.id)
  }

  /** The lines after the first, parsed. */
  function DataRows(text: string): (rows: seq<ImportedProduct>)
    ensures |rows| == |Text.Split(text, '\n')| - 1
    ensures forall j :: 0 <= j < |rows| ==> rows[j] == ParseRow(Text.Split(text, '\n')[j + 1])
  {
    var lines := Text.Split(text, '\n')[1..];
    seq(|lines|, j requires 0 <= j < |lines| => ParseRow(lines[j]))
  }

  /** The CSV branch of `handleImport`: every line but the first, parsed, keeping the
      rows whose id is non-empty, in file order. */
  function ImportCsv(text: string): (r: seq<ImportedProduct>)
    ensures |r| <= |Text.Split(text, '\n')| - 1
    ensures forall i :: 0 <= i < |r| ==> HasId(r[i]) && r[i] in DataRows(text)
    ensures forall j :: 0 <= j < |DataRows(text)| && HasId(DataRows(text)[j]) ==> DataRows(text)[j] in r
    ensures Seqs.IsSublist(r, DataRows(text))
    ensures forall row :: multiset(r)[row] == if HasId(row) then multiset(DataRows(text))[row] else 0
  {
    Seqs.FilterMultiset(DataRows(text), HasId);
    Seqs.Filter(DataRows(text), HasId)
  }

  /** Importing the file the export produces does not give the products back: every
      id and name comes back wrapped in quotes and every number is NaN. */
  lemma ExportThenImport(ps: seq<Product>, showPrice: real -> string)
    requires FieldsAvoid(ps, showPrice, '\n') && FieldsAvoid(ps, showPrice, ',')
    ensures |ImportCsv(ExportCsv(ps, showPrice))| == |ps|
    ensures forall i :: 0 <= i < |ps| ==>
      var q := ImportCsv(ExportCsv(ps, showPrice))[i];
      && q.id == Some(Quote(ShowOptional(ps[i].id)))
      && q.name == Some(Quote(ps[i].name))
      && q.stock == NaN && q.minStock == NaN && q.price == NaN
  {
    var text := ExportCsv(ps, showPrice);
    ExportLineCount(ps, showPrice);
    var ls := ExportLines(ps, showPrice);
    var rows := DataRows(text);
    forall i | 0 <= i < |ps|
      ensures rows[i] == ParseRow(CsvLine(ExportFields(ps[i], showPrice)))
      ensures rows[i].id == Some(Quote(ShowOptional(ps[i].id)))
      ensures rows[i].name == Some(Quote(ps[i].name))
      ensures rows[i].stock == NaN && rows[i].minStock == NaN && rows[i].price == NaN
    {
      var fs := ExportFields(ps[i], showPrice);
      assert rows[i] == ParseRow(ls[i + 1]);
      assert ls[i + 1] == CsvLine(fs);
      CsvLineCells(fs);
      var cells := Text.Split(CsvLine(fs), ',');
      assert cells == QuoteAll(fs);
      assert cells[4] == Quote(fs[4]) && cells[4][0] == '"';
      assert cells[5] == Quote(fs[5]) && cells[5][0] == '"';
      assert cells[6] == Quote(fs[6]) && cells[6][0] == '"';
    }
    forall i | 0 <= i < |rows|
      ensures HasId(rows[i])
    {
      assert rows[i].id == Some(Quote(ShowOptional(ps[i].id)));
    }
    Seqs.FilterAll(rows, HasId);
  }

  /** The cache after an import: the cached list (empty when nothing was fetched yet),
      unchanged and in order, followed by the imported rows. Nothing is sent to the
      server. */
  function AppendImported<T>(cache: Option<seq<T>>, imported: seq<T>): (r: seq<T>)
    ensures |r| == |cache.GetOr([])| + |imported|
    ensures r[..|cache.GetOr([])|] == cache.GetOr([])
    ensures r[|cache.GetOr([])|..] == imported
  {
    cache.GetOr([]) + imported
  }

  // ---------------------------------------------------------------- delete

  /** The product a delete key refers to: the first whose `id` or `_id` equals the
      key (an undefined key matches an undefined field, as `===` does). */
  function ResolveProduct(products: seq<Product>, key: Option<string>): (r: Option<Product>)
    ensures r.Some? ==> exists i :: (
      && 0 <= i < |products| && products[i] == r.value
      && (products[i].id == key || products[i].objectId == key)
      && forall j :: 0 <= j < i ==> products[j].id != key && products[j].objectId != key)
    ensures r.None? ==> forall j :: 0 <= j < |products| ==> products[j].id != key && products[j].objectId != key
  {
    Seqs.Find(products, (p: Product) => p.id == key || p.objectId == key)
  }

  /** The `_id` the delete request is sent for, if the resolved product has a non-empty one. */
  function BackendId(products: seq<Product>, key: Option<string>): (r: Option<string>)
    ensures r.Some? <==> ResolveProduct(products, key).Some? && Truthy(ResolveProduct(products, key).value.objectId)
    ensures r.Some? ==> r == ResolveProduct(products, key).value.objectId && r.value != ""
  {
    match ResolveProduct(products, key)
    case Some(p) => if Truthy(p.objectId) then p.objectId else None
    case None => None
  }

  /** What `handleDeleteProduct` does: the `_id` it sends DELETE for (None: no request),
      the query cache afterwards, and whether it invalidates the product query. */
  datatype DeleteOutcome = DeleteOutcome(request: Option<string>, cache: Option<seq<Product>>, invalidated: bool)

  /** `handleDeleteProduct(key)`; `backendOk` is whether the DELETE request succeeds. */
  function HandleDelete(cache: Option<seq<Product>>, key: Option<string>, backendOk: bool): (r: DeleteOutcome)
    ensures r.request.None? <==> BackendId(cache.GetOr([]), key).None?
    ensures r.request.Some? ==> r.request == BackendId(cache.GetOr([]), key)
    ensures r.request.None? ==> r.cache == cache && !r.invalidated
    ensures r.invalidated <==> r.request.Some? && backendOk
    ensures r.request.Some? && !backendOk ==> r.cache == Some(cache.GetOr([]))
    ensures r.cache.GetOr([]) == cache.GetOr([])
  {
    var snapshot := cache.GetOr([]);
    match BackendId(snapshot, key)
    case None => DeleteOutcome(None, cache, false)
    case Some(id) =>
      if backendOk then DeleteOutcome(Some(id), cache, true)
      else DeleteOutcome(Some(id), Some(snapshot), false)
  }

  /** The row's delete button as written: it passes the row's `id`. */
  function DeleteRowAsWritten(cache: Option<seq<Product>>, row: Product, backendOk: bool): DeleteOutcome {
    HandleDelete(cache, row.id, backendOk)
  }

  /** Products stored without an `id` (as the seeding script creates them): clicking
      delete on the second one sends the DELETE for the first one's `_id`. */
  lemma DeleteRowAsWrittenHitsWrongProduct()
    ensures var a := Product(Some("aaaaaaaaaaaaaaaaaaaaaaaa"), None, "Widget A", "Widgets", "WIDGET-A",
                             120, 30, 10.5, "", "", "In Stock", None);
            var b := Product(Some("bbbbbbbbbbbbbbbbbbbbbbbb"), None, "Widget B", "Widgets", "WIDGET-B",
                             80, 20, 12.0, "", "", "In Stock", None);
            DeleteRowAsWritten(Some([a, b]), b, true).request == Some("aaaaaaaaaaaaaaaaaaaaaaaa")
  {
    var a := Product(Some("aaaaaaaaaaaaaaaaaaaaaaaa"), None, "Widget A", "Widgets", "WIDGET-A",
                     120, 30, 10.5, "", "", "In Stock", None);
    var b := Product(Some("bbbbbbbbbbbbbbbbbbbbbbbb"), None, "Widget B", "Widgets", "WIDGET-B",
                     80, 20, 12.0, "", "", "In Stock", None);
    assert ResolveProduct([a, b], None) == Some(a);
  }

  /** The delete button passing the row's `_id`. */
  function DeleteRow(cache: Option<seq<Product>>, row: Product, backendOk: bool): (r: DeleteOutcome)
    ensures r.cache.GetOr([]) == cache.GetOr([])
    ensures r.invalidated ==> backendOk
  {
    HandleDelete(cache, row.objectId, backendOk)
  }

  /** `_id` values are unique and never equal to a business `id`. */
  predicate WellKeyed(products: seq<Product>) {
    && (forall i, j :: 0 <= i < j < |products| && Truthy(products[i].objectId) ==>
          products[i].objectId != products[j].objectId)
    && (forall i, j :: 0 <= i < |products| && 0 <= j < |products| && Truthy(products[i].objectId) ==>
          products[j].id != products[i].objectId)
  }

  /** With the row's `_id` as the key, the request goes to exactly the clicked row. */
  lemma DeleteRowTargetsClickedRow(products: seq<Product>, k: nat, backendOk: bool)
    requires k < |products| && WellKeyed(products) && Truthy(products[k].objectId)
    ensures DeleteRow(Some(products), products[k], backendOk).request == products[k].objectId
  {
    var key := products[k].objectId;
    var r := ResolveProduct(products, key);
    assert r.Some? by {
      assert products[k].objectId == key;
    }
    var i :| 0 <= i < |products| && products[i] == r.value
      && (products[i].id == key || products[i].objectId == key)
      && forall j :: 0 <= j < i ==> products[j].id != key && products[j].objectId != key;
    assert products[i].id != key;
    if i < k {
      assert false;
    } else if i > k {
      assert false;
    }
  }

  // ---------------------------------------------------------------- save

  /** The request `handleSaveProduct` leads to. */
  datatype SaveRequest =
    | PostProduct(product: Product)
    | PutProduct(objectId: string, product: Product)
    | SaveFailed(message: string)

  /** `handleSaveProduct`: update while editing, add otherwise; the update fails before
      any request when the product has no `_id`. */
  function HandleSave(editing: Option<Product>, p: Product): (r: SaveRequest)
    ensures editing.None? <==> r == PostProduct(p)
    ensures r.PutProduct? <==> editing.Some? && Truthy(p.objectId)
    ensures r.PutProduct? ==> Some(r.objectId) == p.objectId && r.product == p
    ensures r.SaveFailed? ==> r.message == "Product _id is required for update"
  {
    match editing
    case None => PostProduct(p)
    case Some(_) =>
      if Truthy(p.objectId) then PutProduct(p.objectId.value, p)
      else SaveFailed("Product _id is required for update")
  }

  // ---------------------------------------------------------------- status counts

  datatype StatusCounts = StatusCounts(inStock: nat, lowStock: nat, critical: nat)

  predicate CountedInStock(p: Product) {
    p.stock > p.minStock
  }

  predicate CountedLow(p: Product) {
    p.stock <= p.minStock && p.stock as real > p.minStock as real / 2.0
  }

  predicate CountedCritical(p: Product) {
    p.stock as real <= p.minStock as real / 2.0
  }

  /** The three counts as written: three independent filters. */
  function StatusCountsAsWritten(ps: seq<Product>): (c: StatusCounts)
    ensures c.inStock == |Seqs.Filter(ps, CountedInStock)|
    ensures c.lowStock == |Seqs.Filter(ps, CountedLow)|
    ensures c.critical == |Seqs.Filter(ps, CountedCritical)|
  {
    StatusCounts(Seqs.Count(ps, CountedInStock), Seqs.Count(ps, CountedLow), Seqs.Count(ps, CountedCritical))
  }

  /** A product with a negative minimum is counted twice: stock -3 against minimum -4
      is both above the minimum and at most half of it. */
  lemma CountsOverlapForNegativeMinimum()
    ensures var p := Product(None, Some("P001"), "Widget", "Widgets", "W-1", -3, -4, 1.0, "", "", "In Stock", None);
      var c := StatusCountsAsWritten([p]);
      c.inStock + c.lowStock + c.critical == 2
  {
    var p := Product(None, Some("P001"), "Widget", "Widgets", "W-1", -3, -4, 1.0, "", "", "In Stock", None);
    assert CountedInStock(p) && CountedCritical(p) && !CountedLow(p);
    assert Seqs.Filter([p], CountedInStock) == [p];
    assert Seqs.Filter([p], CountedCritical) == [p];
    assert Seqs.Filter([p], CountedLow) == [];
  }

  function StatusOf(p: Product): Status {
    Classify(p.stock as real, p.minStock as real)
  }

  predicate IsInStock(p: Product) { StatusOf(p) == InStock }
  predicate IsLowStock(p: Product) { StatusOf(p) == LowStock }
  predicate IsCritical(p: Product) { StatusOf(p) == Critical }

  /** The counts by the server's status rule, which gives every product one status. */
  function StatusCountsOf(ps: seq<Product>): (c: StatusCounts)
    ensures c.inStock == Seqs.Count(ps, IsInStock)
    ensures c.lowStock == Seqs.Count(ps, IsLowStock)
    ensures c.critical == Seqs.Count(ps, IsCritical)
    ensures c.inStock + c.lowStock + c.critical == |ps|
  {
    Seqs.CountPartition(ps, IsInStock, IsLowStock, IsCritical);
    StatusCounts(Seqs.Count(ps, IsInStock), Seqs.Count(ps, IsLowStock), Seqs.Count(ps, IsCritical))
  }

  /** For non-negative minimums the counts as written agree with the status rule, and
      so add up to the number of products. */
  lemma CountsAgreeForNonNegativeMinimums(ps: seq<Product>)
    requires forall i :: 0 <= i < |ps| ==> ps[i].minStock >= 0
    ensures StatusCountsAsWritten(ps) == StatusCountsOf(ps)
    ensures StatusCountsAsWritten(ps).inStock + StatusCountsAsWritten(ps).lowStock
      + StatusCountsAsWritten(ps).critical == |ps|
  {
    Seqs.FilterEquiv(ps, CountedInStock, IsInStock);
    Seqs.FilterEquiv(ps, CountedLow, IsLowStock);
    Seqs.FilterEquiv(ps, CountedCritical, IsCritical);
  }
}

=== FILE: products.dfy ===
/** The client-side `Product` record (src/types/Product.ts). */
module Products {
  import opened Wrappers

  /** One entry of a product's sales history. */
  datatype SalesEntry = SalesEntry(period: string, sales: int)

  /** `objectId` is the MongoDB `_id` and `id` the business id; both are optional
      until the product is persisted. */
  datatype Product = Product(
    objectId: Option<string>,
    id: Option<string>,
    name: string,
    category: string,
    sku: string,
    stock: int,
    minStock: int,
    price: real,
    supplier: string,
    lastRestocked: string,
    status: string,
    salesHistory: Option<seq<SalesEntry>>)

  /** JavaScript truthiness of an optional string: present and non-empty. */
  predicate Truthy(s: Option<string>) {
    s.Some? && s.value != ""
  }
}

=== FILE: profile_settings.dfy ===
/** The profile page (src/pages/ProfileSettings.tsx): what it shows when it opens,
    the checks on Save and the record it keeps in local storage under
    "profile_settings". The password field is never stored. */
module ProfileSettings {
  import opened Wrappers
  import Text

  const StorageKey := "profile_settings"

  /** The parsed stored record: each field may be missing. */
  datatype StoredProfile = StoredProfile(name: Option<string>, email: Option<string>, avatar: Option<string>)

  datatype Profile = Profile(name: string, email: string, avatar: string)

  const DefaultProfile := Profile("John Doe", "john@example.com", "")

  /** `field || ""`. */
  function OrEmpty(field: Option<string>): (v: string)
    ensures field.Some? ==> v == field.value
    ensures field.None? ==> v == ""
  {
    field.GetOr("")
  }

  /** The form on opening. `stored` is None when nothing (or an empty string) is stored. */
  function Load(stored: Option<StoredProfile>): (p: Profile)
    ensures stored.None? ==> p == DefaultProfile
    ensures stored.Some? ==>
      p == Profile(OrEmpty(stored.value.name), OrEmpty(stored.value.email), OrEmpty(stored.value.avatar))
  {
    match stored
    case None => DefaultProfile
    case Some(r) => Profile(OrEmpty(r.name), OrEmpty(r.email), OrEmpty(r.avatar))
  }

  /** A character `[^@\s]` accepts. */
  predicate PlainChar(c: char) {
    c != '@' && !Text.IsSpace(c)
  }

  /** A non-empty run of such characters: `[^@\s]+`. */
  predicate Plain(s: string) {
    |s| > 0 && forall k :: 0 <= k < |s| ==> PlainChar(s[k])
  }

  /** `/^[^@\s]+@[^@\s]+\.[^@\s]+$/.test(s)`: the string splits into a plain run,
      '@', a plain run, '.', and a plain run. */
  predicate MatchesEmailPattern(s: string) {
    exists i, j | 0 < i < j < |s| ::
      s[i] == '@' && s[j] == '.' && Plain(s[..i]) && Plain(s[i + 1..j]) && Plain(s[j + 1..])
  }

  /** With a single '@' at `i`, every other position holds something else. */
  lemma OnlyAt(s: string, i: int)
    requires 0 <= i < |s| && s[i] == '@' && multiset(s)['@'] == 1
    ensures forall k :: 0 <= k < |s| && k != i ==> s[k] != '@'
  {
    forall k | 0 <= k < |s| && k != i
      ensures s[k] != '@'
    {
      var lo := if k < i then k else i;
      var hi := if k < i then i else k;
      assert s == s[..hi] + s[hi..];
      assert s[lo] == s[..hi][lo];
      assert s[hi] == s[hi..][0];
    }
  }

  /** The three parts of the pattern in plain terms. */
  predicate EmailShape(s: string) {
    && multiset(s)['@'] == 1
    && (forall k :: 0 <= k < |s| ==> !Text.IsSpace(s[k]))
    && (exists i, j | 0 < i && i + 1 < j && j + 1 < |s| :: s[i] == '@' && s[j] == '.')
  }

  /** A plain run holds no '@'. */
  lemma PlainHasNoAt(t: string)
    requires Plain(t)
    ensures multiset(t)['@'] == 0
  {
    assert '@' !in t by {
      assert forall k :: 0 <= k < |t| ==> t[k] != '@';
    }
  }

  /** Splitting a string around two positions splits its multiset the same way. */
  lemma MultisetAround(s: string, i: int, j: int)
    requires 0 <= i < j < |s|
    ensures multiset(s) == multiset(s[..i]) + multiset{s[i]} + multiset(s[i + 1..j]) + multiset{s[j]} + multiset(s[j + 1..])
  {
    assert s == s[..i] + [s[i]] + s[i + 1..j] + [s[j]] + s[j + 1..];
  }

  lemma PatternHasShape(s: string)
    requires MatchesEmailPattern(s)
    ensures EmailShape(s)
  {
    var i, j :| 0 < i < j < |s| && s[i] == '@' && s[j] == '.'
      && Plain(s[..i]) && Plain(s[i + 1..j]) && Plain(s[j + 1..]);
    var a, b, c := s[..i], s[i + 1..j], s[j + 1..];
    PlainHasNoAt(a);
    PlainHasNoAt(b);
    PlainHasNoAt(c);
    MultisetAround(s, i, j);
    PatternHasNoSpace(s, i, j);
    assert i + 1 < j && j + 1 < |s|;
  }

  /** A string of the pattern's form holds no white space. */
  lemma PatternHasNoSpace(s: string, i: int, j: int)
    requires 0 < i < j < |s| && s[i] == '@' && s[j] == '.'
    requires Plain(s[..i]) && Plain(s[i + 1..j]) && Plain(s[j + 1..])
    ensures forall k :: 0 <= k < |s| ==> !Text.IsSpace(s[k])
  {
    var a, b, c := s[..i], s[i + 1..j], s[j + 1..];
    forall k | 0 <= k < |s|
      ensures !Text.IsSpace(s[k])
    {
      if k < i {
        assert PlainChar(a[k]);
      } else if k == i {
        assert s[k] == '@';
      } else if k < j {
        assert PlainChar(b[k - i - 1]);
      } else if k == j {
        assert s[k] == '.';
      } else {
        assert PlainChar(c[k - j - 1]);
      }
    }
  }

  lemma ShapeMatchesPattern(s: string)
    requires EmailShape(s)
    ensures MatchesEmailPattern(s)
  {
    var i, j :| 0 < i && i + 1 < j && j + 1 < |s| && s[i] == '@' && s[j] == '.';
    OnlyAt(s, i);
    var a := s[..i];
    assert Plain(a) by {
      forall k | 0 <= k < |a|
        ensures PlainChar(a[k])
      {
        assert a[k] == s[k];
      }
    }
    var b := s[i + 1..j];
    assert Plain(b) by {
      forall k | 0 <= k < |b|
        ensures PlainChar(b[k])
      {
        assert b[k] == s[i + 1 + k];
      }
    }
    var c := s[j + 1..];
    assert Plain(c) by {
      forall k | 0 <= k < |c|
        ensures PlainChar(c[k])
      {
        assert c[k] == s[j + 1 + k];
      }
    }
  }

  /** The pattern in plain terms: exactly one '@', no white space anywhere, at least one
      character before the '@', and a '.' after it with text on both sides of the '.'. */
  lemma EmailPatternShape(s: string)
    ensures MatchesEmailPattern(s) <==> EmailShape(s)
  {
    if MatchesEmailPattern(s) {
      PatternHasShape(s);
    }
    if EmailShape(s) {
      ShapeMatchesPattern(s);
    }
  }

  const RequiredMessage := "Name and Email are required."
  const InvalidEmailMessage := "Please enter a valid email address."

  datatype SaveResult = Rejected(message: string) | Stored(record: StoredProfile)

  /** `handleSave`: blank (after trimming) name or email first, then the pattern, which is
      tested on the untrimmed email; an accepted form is stored as typed. */
  function HandleSave(p: Profile): (r: SaveResult)
    ensures r == Rejected(RequiredMessage) <==> Text.Trim(p.name) == "" || Text.Trim(p.email) == ""
    ensures r == Rejected(InvalidEmailMessage) <==>
      Text.Trim(p.name) != "" && Text.Trim(p.email) != "" && !MatchesEmailPattern(p.email)
    ensures r.Stored? <==>
      Text.Trim(p.name) != "" && Text.Trim(p.email) != "" && MatchesEmailPattern(p.email)
    ensures r.Stored? ==> r.record == StoredProfile(Some(p.name), Some(p.email), Some(p.avatar))
  {
    if Text.Trim(p.name) == "" || Text.Trim(p.email) == "" then Rejected(RequiredMessage)
    else if !MatchesEmailPattern(p.email) then Rejected(InvalidEmailMessage)
    else Stored(StoredProfile(Some(p.name), Some(p.email), Some(p.avatar)))
  }

  /** What was saved is what the page shows when it next opens. */
  lemma SaveThenLoad(p: Profile)
    requires HandleSave(p).Stored?
    ensures Load(Some(HandleSave(p).record)) == p
  {
  }

  /** An accepted email carries no white space, so padding it with spaces is rejected
      even though the required-field check trims. */
  lemma PaddedEmailRejected(p: Profile)
    requires Text.Trim(p.name) != "" && |p.email| > 0 && Text.IsSpace(p.email[0])
    ensures HandleSave(p) == Rejected(RequiredMessage) || HandleSave(p) == Rejected(InvalidEmailMessage)
  {
    EmailPatternShape(p.email);
  }
}

=== FILE: purchase_orders.dfy ===
/** The purchase-order editor of src/components/PurchaseOrderManagement.tsx. */
module PurchaseOrders {
  import opened Wrappers
  import ItemList
  import Lookup
  import Editor
  import opened LineItems

  datatype PurchaseOrder = PurchaseOrder(
    id: Option<string>,
    supplierId: string,
    items: seq<PricedItem>,
    status: string,
    orderDate: string,
    expectedDelivery: string)

  const QueryKey := "purchase-orders"

  /** The form after `resetForm`. */
  const EmptyOrder := PurchaseOrder(None, "", [], "pending", "", "")

  /** `handleAddItem`: one new row at the end, nothing else changes. */
  function AddItem(f: PurchaseOrder): (r: PurchaseOrder)
    ensures |r.items| == |f.items| + 1
    ensures r.items[..|f.items|] == f.items && r.items[|f.items|] == NewPricedItem
    ensures r.(items := f.items) == f
  {
    f.(items := ItemList.Append(f.items, NewPricedItem))
  }

  /** `handleItemChange`: only the field of the row at `idx`; an index off the list changes nothing. */
  function ChangeItem(f: PurchaseOrder, idx: int, e: PricedEdit): (r: PurchaseOrder)
    ensures |r.items| == |f.items|
    ensures 0 <= idx < |f.items| ==> r.items[idx] == ApplyPricedEdit(f.items[idx], e)
    ensures forall i :: 0 <= i < |f.items| && i != idx ==> r.items[i] == f.items[i]
    ensures !(0 <= idx < |f.items|) ==> r == f
    ensures r.(items := f.items) == f
  {
    f.(items := ItemList.ChangeAt(f.items, idx, (item: PricedItem) => ApplyPricedEdit(item, e)))
  }

  /** `handleRemoveItem`: drops the row at `idx`. */
  function RemoveItem(f: PurchaseOrder, idx: int): (r: PurchaseOrder)
    ensures 0 <= idx < |f.items| ==> r.items == f.items[..idx] + f.items[idx + 1..]
    ensures !(0 <= idx < |f.items|) ==> r == f
    ensures r.(items := f.items) == f
  {
    f.(items := ItemList.RemoveAt(f.items, idx))
  }

  /** `handleSubmit`. */
  function Submit(form: PurchaseOrder, editing: Option<PurchaseOrder>): (r: Editor.Request<PurchaseOrder>)
    ensures editing.None? ==> r == Editor.AddRequest(form)
    ensures editing.Some? ==> r.EditRequest? && r.record.id == editing.value.id
    ensures r.record.(id := form.id) == form
  {
    match editing
    case None => Editor.AddRequest(form)
    case Some(e) => Editor.EditRequest(form.(id := e.id))
  }

  /** Opening an order for edit and submitting without changes sends the order as it was. */
  lemma EditUnchangedResends(s: Editor.Screen<PurchaseOrder>, o: PurchaseOrder)
    ensures var shown := Editor.OpenForEdit(s, o);
      Submit(shown.form, shown.editing) == Editor.EditRequest(o)
  {
  }

  /** An item added and then removed leaves the form as it was. */
  lemma RemoveUndoesAddItem(f: PurchaseOrder)
    ensures RemoveItem(AddItem(f), |f.items|) == f
  {
    ItemList.RemoveUndoesAppend(f.items, NewPricedItem);
  }

  /** The supplier shown for an order. */
  function SupplierLabel(suppliers: seq<Lookup.Named>, o: PurchaseOrder): (shown: string)
    ensures shown == Lookup.LabelFor(suppliers, o.supplierId)
    ensures (forall i :: 0 <= i < |suppliers| ==> suppliers[i].key != o.supplierId) ==> shown == o.supplierId
  {
    Lookup.LabelFor(suppliers, o.supplierId)
  }

  /** The product shown for each item of an order. */
  function ItemLabels(products: seq<Lookup.Named>, o: PurchaseOrder): (shown: seq<string>)
    ensures |shown| == |o.items|
    ensures forall k :: 0 <= k < |o.items| ==> shown[k] == Lookup.LabelFor(products, o.items[k].productId)
  {
    seq(|o.items|, k requires 0 <= k < |o.items| => Lookup.LabelFor(products, o.items[k].productId))
  }

  /** A settled add, edit or delete: only the purchase-order query is invalidated. */
  function Settle(s: Editor.Screen<PurchaseOrder>, m: Editor.Mutation, ok: bool): (r: (Editor.Screen<PurchaseOrder>, set<string>))
    ensures ok ==> r.1 == {"purchase-orders"}
    ensures !ok ==> r == (s, {})
    ensures ok && m != Editor.DeleteMutation ==> r.0 == Editor.Screen(EmptyOrder, None, false)
    ensures m == Editor.DeleteMutation ==> r.0 == s
  {
    Editor.OnSettled(s, m, ok, QueryKey, EmptyOrder)
  }
}

=== FILE: seqs.dfy ===
/** Order-preserving list operations of JavaScript arrays used throughout the
    dashboard: `filter`, `find`, and counting by `filter(...).length`. */
module Seqs {
  import opened Wrappers

  /** `a` can be obtained from `b` by deleting elements (order is kept). */
  predicate IsSublist<T(==)>(a: seq<T>, b: seq<T>)
    decreases |b|
  {
    if |a| == 0 then true
    else if |b| == 0 then false
    else if a[0] == b[0] then IsSublist(a[1..], b[1..])
    else IsSublist(a, b[1..])
  }

  /** `xs.filter(f)`. */
  function Filter<T(==)>(xs: seq<T>, f: T -> bool): (r: seq<T>)
    ensures |r| <= |xs|
    ensures forall i :: 0 <= i < |r| ==> r[i] in xs && f(r[i])
    ensures forall i :: 0 <= i < |xs| && f(xs[i]) ==> xs[i] in r
    ensures IsSublist(r, xs)
    decreases |xs|
  {
    if |xs| == 0 then []
    else
      var rest := Filter(xs[1..], f);
      if f(xs[0]) then [xs[0]] + rest
      else
        assert rest != [] ==> rest[0] != xs[0];
        rest
  }

  /** Filtering keeps every occurrence of a kept element: an element that passes
      occurs in the result as often as in the input, any other element not at all. */
  lemma {:induction false} FilterMultiset<T(!new)>(xs: seq<T>, f: T -> bool)
    ensures forall x :: multiset(Filter(xs, f))[x] == if f(x) then multiset(xs)[x] else 0
    decreases |xs|
  {
    if |xs| > 0 {
      FilterMultiset(xs[1..], f);
      assert xs == [xs[0]] + xs[1..];
    }
  }

  /** Filtering with a predicate that every element satisfies changes nothing. */
  lemma {:induction false} FilterAll<T>(xs: seq<T>, f: T -> bool)
    requires forall i :: 0 <= i < |xs| ==> f(xs[i])
    ensures Filter(xs, f) == xs
    decreases |xs|
  {
    if |xs| > 0 {
      FilterAll(xs[1..], f);
    }
  }

  /** Filtering distributes over concatenation. */
  lemma {:induction false} FilterAppend<T>(xs: seq<T>, ys: seq<T>, f: T -> bool)
    ensures Filter(xs + ys, f) == Filter(xs, f) + Filter(ys, f)
    decreases |xs|
  {
    if |xs| > 0 {
      assert (xs + ys)[1..] == xs[1..] + ys;
      FilterAppend(xs[1..], ys, f);
    } else {
      assert xs + ys == ys;
    }
  }

  /** Filtering with two predicates that agree on every element gives the same list. */
  lemma {:induction false} FilterEquiv<T>(xs: seq<T>, f: T -> bool, g: T -> bool)
    requires forall i :: 0 <= i < |xs| ==> f(xs[i]) == g(xs[i])
    ensures Filter(xs, f) == Filter(xs, g)
    decreases |xs|
  {
    if |xs| > 0 {
      FilterEquiv(xs[1..], f, g);
    }
  }

  /** `xs.filter(f).length`. */
  function Count<T(==)>(xs: seq<T>, f: T -> bool): nat {
    |Filter(xs, f)|
  }

  /** Exactly one of three conditions holds. */
  predicate OneOf(a: bool, b: bool, c: bool) {
    (a && !b && !c) || (!a && b && !c) || (!a && !b && c)
  }

  /** Three predicates that classify every element into exactly one class partition
      the list: the three counts add up to its length. */
  lemma {:induction false} CountPartition<T>(xs: seq<T>, f: T -> bool, g: T -> bool, h: T -> bool)
    requires forall i :: 0 <= i < |xs| ==>
      OneOf(f(xs[i]), g(xs[i]), h(xs[i]))
    ensures Count(xs, f) + Count(xs, g) + Count(xs, h) == |xs|
    decreases |xs|
  {
    if |xs| > 0 {
      CountPartition(xs[1..], f, g, h);
    }
  }

  /** The index of the first element satisfying `f`, as `xs.findIndex(f)` (None for -1). */
  function FindIndex<T>(xs: seq<T>, f: T -> bool): (r: Option<nat>)
    ensures r.Some? ==>
      (r.value < |xs| && f(xs[r.value]) && forall j :: 0 <= j < r.value ==> !f(xs[j]))
    ensures r.None? ==> forall j :: 0 <= j < |xs| ==> !f(xs[j])
    decreases |xs|
  {
    if |xs| == 0 then None
    else if f(xs[0]) then Some(0)
    else
      match FindIndex(xs[1..], f)
      case None => None
      case Some(k) => Some(k + 1)
  }

  /** `xs.find(f)`: the first element satisfying `f`, if any. */
  function Find<T>(xs: seq<T>, f: T -> bool): (r: Option<T>)
    ensures r.Some? <==> exists i :: 0 <= i < |xs| && f(xs[i])
    ensures r.Some? ==>
      exists i :: (0 <= i < |xs| && xs[i] == r.value && f(xs[i]) && forall j :: 0 <= j < i ==> !f(xs[j]))
  {
    match FindIndex(xs, f)
    case None => None
    case Some(i) => Some(xs[i])
  }
}

=== FILE: server_store.dfy ===
/** The server's view of MongoDB (ml-backend/main.py): JSON-like values, documents
    as field maps, a collection as a map from `_id` to document, ObjectId parsing and
    the HTTP replies of FastAPI handlers. */
module ServerStore {
  import opened Wrappers
  import Text

  /** A JSON/BSON value as Python sees it after `request.json()`. `VOid` is a BSON
      ObjectId, kept as its lower-case hexadecimal text. */
  datatype Value =
    | VNull
    | VBool(b: bool)
    | VInt(i: int)
    | VFloat(r: real)
    | VStr(s: string)
    | VList(items: seq<Value>)
    | VObject(fields: map<string, Value>)
    | VOid(hex: string)

  /** A document: field name to value (the `_id` field is kept as the collection key). */
  type Record = map<string, Value>

  /** A collection: `_id` value to the rest of the document. */
  type Collection = map<Value, Record>

  /** A reply of a FastAPI handler: a JSON body, or an `HTTPException`
      (status 500 stands for an uncaught Python exception). */
  datatype Reply<T> = Ok(body: T) | HttpError(status: nat, detail: string)

  const InternalError := "Internal Server Error"

  predicate IsHexDigit(c: char) {
    ('0' <= c <= '9') || ('a' <= c <= 'f') || ('A' <= c <= 'F')
  }

  /** Text `bson.ObjectId(text)` accepts: exactly 24 hexadecimal digits. */
  predicate IsObjectIdText(s: string) {
    |s| == 24 && forall i :: 0 <= i < |s| ==> IsHexDigit(s[i])
  }

  /** `ObjectId(s)`: None where bson raises `InvalidId`. Upper- and lower-case spellings
      denote the same ObjectId. */
  function ParseObjectId(s: string): (r: Option<Value>)
    ensures r.Some? <==> IsObjectIdText(s)
    ensures r.Some? ==> r.value.VOid? && |r.value.hex| == 24
  {
    if IsObjectIdText(s) then Some(VOid(Text.Lower(s))) else None
  }

  /** The number a value stands for in Python arithmetic and comparisons (`bool` is a
      subclass of `int`); None where Python raises `TypeError`. */
  function NumberOf(v: Value): (r: Option<real>)
    ensures r.Some? <==> v.VInt? || v.VFloat? || v.VBool?
  {
    match v
    case VInt(i) => Some(i as real)
    case VFloat(x) => Some(x)
    case VBool(b) => Some(if b then 1.0 else 0.0)
    case _ => None
  }

  /** `data.get(field, default)`. */
  function Get(data: Record, field: string, default: Value): (v: Value)
    ensures field in data ==> v == data[field]
    ensures field !in data ==> v == default
  {
    if field in data then data[field] else default
  }

  /** `data.pop(field, None)`: the document without `field`. */
  function Pop(data: Record, field: string): (r: Record)
    ensures r.Keys == data.Keys - {field}
    ensures forall k :: k in r ==> r[k] == data[k]
  {
    data - {field}
  }

  /** Python's `int(x)` for a float: truncation toward zero. */
  function Trunc(x: real): (n: int)
    ensures x >= 0.0 ==> 0 <= n && n as real <= x < n as real + 1.0
    ensures x < 0.0 ==> n <= 0 && n as real - 1.0 < x <= n as real
  {
    if x >= 0.0 then x.Floor else -((-x).Floor)
  }
}

=== FILE: settings.dfy ===
/** The settings page (src/pages/Settings.tsx): defaults on opening, the record kept
    under "app_settings", the dark-mode decision and the colour palettes written to the
    document's CSS variables. The system colour-scheme preference is a parameter. */
module Settings {
  import opened Wrappers

  const StorageKey := "app_settings"

  /** The parsed stored record. `emailNotifications` is None when the field is missing
      or holds something other than a boolean. */
  datatype StoredSettings = StoredSettings(theme: Option<string>, color: Option<string>, emailNotifications: Option<bool>)

  datatype AppSettings = AppSettings(theme: string, color: string, emailNotifications: bool)

  const DefaultSettings := AppSettings("auto", "default", true)

  /** `field || fallback` for a string field. */
  function OrDefault(field: Option<string>, fallback: string): (v: string)
    ensures field.Some? && field.value != "" ==> v == field.value
    ensures field.None? || field.value == "" ==> v == fallback
  {
    if field.Some? && field.value != "" then field.value else fallback
  }

  /** The page on opening: an empty theme or colour falls back like a missing one, and
      notifications are off only when the stored value is exactly `false`. */
  function Load(stored: Option<StoredSettings>): (s: AppSettings)
    ensures stored.None? ==> s == DefaultSettings
    ensures stored.Some? ==>
      && s.theme == OrDefault(stored.value.theme, "auto")
      && s.color == OrDefault(stored.value.color, "default")
      && (s.emailNotifications <==> stored.value.emailNotifications != Some(false))
  {
    match stored
    case None => DefaultSettings
    case Some(r) => AppSettings(OrDefault(r.theme, "auto"), OrDefault(r.color, "default"), r.emailNotifications != Some(false))
  }

  /** The record Save writes: the three fields and nothing else. */
  function SavedRecord(s: AppSettings): (r: StoredSettings)
    ensures r.theme == Some(s.theme) && r.color == Some(s.color) && r.emailNotifications == Some(s.emailNotifications)
  {
    StoredSettings(Some(s.theme), Some(s.color), Some(s.emailNotifications))
  }

  /** Saving then reopening gives the same settings, as long as theme and colour are
      not empty (the page's selects never offer an empty value). */
  lemma SaveThenLoad(s: AppSettings)
    requires s.theme != "" && s.color != ""
    ensures Load(Some(SavedRecord(s))) == s
  {
  }

  /** Whether the `dark` class is on the document after Save. */
  function IsDark(theme: string, systemPrefersDark: bool): (dark: bool)
    ensures dark <==> theme == "dark" || (theme == "auto" && systemPrefersDark)
    ensures theme == "light" ==> !dark
  {
    theme == "dark" || (theme == "auto" && systemPrefersDark)
  }

  /** The four CSS variables a colour choice sets. */
  datatype Palette = Palette(primary: string, primaryForeground: string, secondary: string, secondaryForeground: string)

  /** The palettes of "default" (blue), "green" and "orange". */
  function PaletteFor(color: string): (p: Option<Palette>)
    ensures p.Some? <==> color == "default" || color == "green" || color == "orange"
    ensures p.Some? ==> p.value.primary == p.value.secondaryForeground
    ensures p.Some? ==> p.value.primaryForeground == "210 40% 98%"
    ensures color == "default" ==> p == Some(Palette("222.2 47.4% 11.2%", "210 40% 98%", "210 40% 96.1%", "222.2 47.4% 11.2%"))
    ensures color == "green" ==> p == Some(Palette("158 64% 38%", "210 40% 98%", "174 60% 90%", "158 64% 38%"))
    ensures color == "orange" ==> p == Some(Palette("24 94% 50%", "210 40% 98%", "340 82% 90%", "24 94% 50%"))
  {
    if color == "default" then Some(Palette("222.2 47.4% 11.2%", "210 40% 98%", "210 40% 96.1%", "222.2 47.4% 11.2%"))
    else if color == "green" then Some(Palette("158 64% 38%", "210 40% 98%", "174 60% 90%", "158 64% 38%"))
    else if color == "orange" then Some(Palette("24 94% 50%", "210 40% 98%", "340 82% 90%", "24 94% 50%"))
    else None
  }

  /** The document's custom properties, by name. */
  type CssVars = map<string, string>

  const PaletteKeys := {"--primary", "--primary-foreground", "--secondary", "--secondary-foreground"}

  /** Writes the palette of `color`, if it has one; other colours leave the variables as they were. */
  function ApplyColor(vars: CssVars, color: string): (r: CssVars)
    ensures PaletteFor(color).None? ==> r == vars
    ensures PaletteFor(color).Some? ==>
      && r.Keys == vars.Keys + PaletteKeys
      && r["--primary"] == PaletteFor(color).value.primary
      && r["--primary-foreground"] == PaletteFor(color).value.primaryForeground
      && r["--secondary"] == PaletteFor(color).value.secondary
      && r["--secondary-foreground"] == PaletteFor(color).value.secondaryForeground
    ensures forall k :: k in vars && k !in PaletteKeys ==> k in r && r[k] == vars[k]
  {
    match PaletteFor(color)
    case None => vars
    case Some(p) =>
      vars["--primary" := p.primary]["--primary-foreground" := p.primaryForeground]
          ["--secondary" := p.secondary]["--secondary-foreground" := p.secondaryForeground]
  }

  /** Applying a known colour overwrites whatever the palette keys held before. */
  lemma ApplyColorForgetsPalette(a: CssVars, b: CssVars, color: string)
    requires PaletteFor(color).Some?
    requires a.Keys + PaletteKeys == b.Keys + PaletteKeys
    requires forall k :: k in a && k !in PaletteKeys ==> a[k] == b[k]
    ensures ApplyColor(a, color) == ApplyColor(b, color)
  {
    var ra := ApplyColor(a, color);
    var rb := ApplyColor(b, color);
    assert ra.Keys == rb.Keys;
    forall k | k in ra
      ensures ra[k] == rb[k]
    {
      if k !in PaletteKeys {
        assert ra[k] == a[k] == b[k] == rb[k];
      }
    }
  }

  /** Saving the same colour twice leaves the variables as one save does, and the result
      of a save does not depend on what an earlier known colour wrote. */
  lemma ApplyColorIdempotent(vars: CssVars, color: string, earlier: string)
    ensures ApplyColor(ApplyColor(vars, color), color) == ApplyColor(vars, color)
    ensures PaletteFor(earlier).Some? && PaletteFor(color).Some? ==>
      ApplyColor(ApplyColor(vars, earlier), color) == ApplyColor(ApplyColor(vars, "default"), color)
  {
    if PaletteFor(color).Some? {
      ApplyColorForgetsPalette(ApplyColor(vars, color), vars, color);
      if PaletteFor(earlier).Some? {
        ApplyColorForgetsPalette(ApplyColor(vars, earlier), ApplyColor(vars, "default"), color);
      }
    }
  }

  /** What Save does: the record written, the dark flag and the variables. */
  datatype SaveEffect = SaveEffect(record: StoredSettings, dark: bool, vars: CssVars)

  function HandleSave(s: AppSettings, systemPrefersDark: bool, vars: CssVars): (e: SaveEffect)
    ensures e.record == SavedRecord(s)
    ensures e.dark <==> s.theme == "dark" || (s.theme == "auto" && systemPrefersDark)
    ensures e.vars == ApplyColor(vars, s.color)
  {
    SaveEffect(SavedRecord(s), IsDark(s.theme, systemPrefersDark), ApplyColor(vars, s.color))
  }
}

=== FILE: stock_rules.dfy ===
/** The three-way stock classification shared by the server (`add_product`,
    `update_product`) and the product list's status counters. */
module StockRules {

  datatype Status = Critical | LowStock | InStock

  /** The label stored in a product's `status` field. */
  function StatusName(s: Status): (name: string)
    ensures |name| > 0
  {
    match s
    case Critical => "Critical"
    case LowStock => "Low Stock"
    case InStock => "In Stock"
  }

  /** Critical at or below half the minimum, Low Stock up to the minimum, In Stock above it
      (`/ 2` is true division in both Python and JavaScript). For a negative minimum the
      first test wins, so a stock above the minimum can still be Critical. */
  function Classify(stock: real, minStock: real): (s: Status)
    ensures s == Critical <==> stock <= minStock / 2.0
    ensures s == LowStock <==> minStock / 2.0 < stock <= minStock
    ensures s == InStock <==> minStock < stock && minStock / 2.0 < stock
    ensures minStock >= 0.0 ==> (s == InStock <==> minStock < stock)
  {
    if stock <= minStock / 2.0 then Critical
    else if stock <= minStock then LowStock
    else InStock
  }

  /** A numeric rank of urgency: Critical 0, Low Stock 1, In Stock 2. */
  function Rank(s: Status): nat {
    match s
    case Critical => 0
    case LowStock => 1
    case InStock => 2
  }

  /** More stock never gives a more urgent status, and a non-negative minimum of zero
      classifies an empty shelf as Critical. */
  lemma ClassifyMonotone(stock1: real, stock2: real, minStock: real)
    requires stock1 <= stock2
    ensures Rank(Classify(stock1, minStock)) <= Rank(Classify(stock2, minStock))
    ensures Classify(0.0, 0.0) == Critical
  {
  }
}

=== FILE: stock_transfers.dfy ===
/** The stock-transfer editor of src/components/StockTransferManagement.tsx. The form
    places no constraint between the two warehouses: a transfer from a warehouse to
    itself is sent like any other. */
module StockTransfers {
  import opened Wrappers
  import ItemList
  import Lookup
  import Editor
  import opened LineItems

  datatype StockTransfer = StockTransfer(
    id: Option<string>,
    fromWarehouse: string,
    toWarehouse: string,
    items: seq<TransferItem>,
    status: string,
    transferDate: string)

  const QueryKey := "stock-transfers"

  /** The form after `resetForm`. */
  const EmptyTransfer := StockTransfer(None, "", "", [], "pending", "")

  /** `handleAddItem`: one new row at the end, nothing else changes. */
  function AddItem(f: StockTransfer): (r: StockTransfer)
    ensures |r.items| == |f.items| + 1
    ensures r.items[..|f.items|] == f.items && r.items[|f.items|] == NewTransferItem
    ensures r.(items := f.items) == f
  {
    f.(items := ItemList.Append(f.items, NewTransferItem))
  }

  /** `handleItemChange`: only the field of the row at `idx`; an index off the list changes nothing. */
  function ChangeItem(f: StockTransfer, idx: int, e: TransferEdit): (r: StockTransfer)
    ensures |r.items| == |f.items|
    ensures 0 <= idx < |f.items| ==> r.items[idx] == ApplyTransferEdit(f.items[idx], e)
    ensures forall i :: 0 <= i < |f.items| && i != idx ==> r.items[i] == f.items[i]
    ensures !(0 <= idx < |f.items|) ==> r == f
    ensures r.(items := f.items) == f
  {
    f.(items := ItemList.ChangeAt(f.items, idx, (item: TransferItem) => ApplyTransferEdit(item, e)))
  }

  /** `handleRemoveItem`: drops the row at `idx`. */
  function RemoveItem(f: StockTransfer, idx: int): (r: StockTransfer)
    ensures 0 <= idx < |f.items| ==> r.items == f.items[..idx] + f.items[idx + 1..]
    ensures !(0 <= idx < |f.items|) ==> r == f
    ensures r.(items := f.items) == f
  {
    f.(items := ItemList.RemoveAt(f.items, idx))
  }

  /** `handleSubmit`. */
  function Submit(form: StockTransfer, editing: Option<StockTransfer>): (r: Editor.Request<StockTransfer>)
    ensures editing.None? ==> r == Editor.AddRequest(form)
    ensures editing.Some? ==> r.EditRequest? && r.record.id == editing.value.id
    ensures r.record.(id := form.id) == form
  {
    match editing
    case None => Editor.AddRequest(form)
    case Some(e) => Editor.EditRequest(form.(id := e.id))
  }

  /** A new transfer whose source and destination are the same warehouse is still
      sent, unchanged. */
  lemma SameWarehouseIsSent(form: StockTransfer)
    requires form.fromWarehouse == form.toWarehouse
    ensures Submit(form, None).record.fromWarehouse == Submit(form, None).record.toWarehouse
    ensures Submit(form, None) == Editor.AddRequest(form)
  {
  }

  /** The two warehouses shown for a transfer. */
  function WarehouseLabels(warehouses: seq<Lookup.Named>, t: StockTransfer): (shown: (string, string))
    ensures shown.0 == Lookup.LabelFor(warehouses, t.fromWarehouse)
    ensures shown.1 == Lookup.LabelFor(warehouses, t.toWarehouse)
    ensures (forall i :: 0 <= i < |warehouses| ==> warehouses[i].key != t.fromWarehouse) ==> shown.0 == t.fromWarehouse
    ensures (forall i :: 0 <= i < |warehouses| ==> warehouses[i].key != t.toWarehouse) ==> shown.1 == t.toWarehouse
  {
    (Lookup.LabelFor(warehouses, t.fromWarehouse), Lookup.LabelFor(warehouses, t.toWarehouse))
  }

  /** The product shown for each item of a transfer: its name when the product list
      has one for the id, and the raw id otherwise. */
  function ItemLabels(products: seq<Lookup.Named>, t: StockTransfer): (shown: seq<string>)
    ensures |shown| == |t.items|
    ensures forall k :: 0 <= k < |t.items| ==> shown[k] == Lookup.LabelFor(products, t.items[k].productId)
    ensures forall k :: 0 <= k < |t.items| && (forall i :: 0 <= i < |products| ==> products[i].key != t.items[k].productId) ==>
      shown[k] == t.items[k].productId
  {
    seq(|t.items|, k requires 0 <= k < |t.items| => Lookup.LabelFor(products, t.items[k].productId))
  }

  /** A settled add, edit or delete: only the stock-transfer query is invalidated. */
  function Settle(s: Editor.Screen<StockTransfer>, m: Editor.Mutation, ok: bool): (r: (Editor.Screen<StockTransfer>, set<string>))
    ensures ok ==> r.1 == {"stock-transfers"}
    ensures !ok ==> r == (s, {})
    ensures ok && m != Editor.DeleteMutation ==> r.0 == Editor.Screen(EmptyTransfer, None, false)
    ensures m == Editor.DeleteMutation ==> r.0 == s
  {
    Editor.OnSettled(s, m, ok, QueryKey, EmptyTransfer)
  }
}

=== FILE: text.dfy ===
/** The string primitives of JavaScript and Python that the dashboard relies on:
    `\s`, `trim`, ASCII case mapping, `includes`, `split`/`join`, decimal
    rendering and parsing, `padStart` and `slice(-k)`. */
module Text {

  /** The characters matched by `\s` in a JavaScript regular expression, which are
      also the characters `String.prototype.trim` removes. */
  predicate IsSpace(c: char) {
    || c == ' ' || c == '\t' || c == '\n' || c == '\r'
    || c == '\U{000B}' || c == '\U{000C}' || c == '\U{00A0}' || c == '\U{1680}'
    || ('\U{2000}' <= c <= '\U{200A}')
    || c == '\U{2028}' || c == '\U{2029}' || c == '\U{202F}' || c == '\U{205F}'
    || c == '\U{3000}' || c == '\U{FEFF}'
  }

  /** True iff every character of `s` is white space (including the empty string). */
  predicate AllSpace(s: string) {
    forall i :: 0 <= i < |s| ==> IsSpace(s[i])
  }

  /** `s.trimStart()`. */
  function TrimStart(s: string): (r: string)
    ensures |r| <= |s| && r == s[|s| - |r|..]
    ensures AllSpace(s[..|s| - |r|])
    ensures r == [] || !IsSpace(r[0])
  {
    if |s| == 0 || !IsSpace(s[0]) then s
    else
      var t := s[1..];
      var r := TrimStart(t);
      var skipped := t[..|t| - |r|];
      var prefix := s[..|s| - |r|];
      assert AllSpace(skipped);
      forall i | 0 <= i < |prefix|
        ensures IsSpace(prefix[i])
      {
        if i > 0 {
          assert prefix[i] == skipped[i - 1];
        }
      }
      r
  }

  /** `s.trimEnd()`. */
  function TrimEnd(s: string): (r: string)
    ensures |r| <= |s| && r == s[..|r|]
    ensures AllSpace(s[|r|..])
    ensures r == [] || !IsSpace(r[|r| - 1])
  {
    if |s| == 0 || !IsSpace(s[|s| - 1]) then s
    else
      var t := s[..|s| - 1];
      var r := TrimEnd(t);
      var skipped := t[|r|..];
      var suffix := s[|r|..];
      assert AllSpace(skipped);
      forall i | 0 <= i < |suffix|
        ensures IsSpace(suffix[i])
      {
        if i < |skipped| {
          assert suffix[i] == skipped[i];
        }
      }
      r
  }

  /** `s.trim()`. */
  function Trim(s: string): string {
    TrimEnd(TrimStart(s))
  }

  /** A string is blank after trimming exactly when it consists of white space only. */
  lemma TrimEmptyIffAllSpace(s: string)
    ensures Trim(s) == [] <==> AllSpace(s)
  {
    var t := TrimStart(s);
    if Trim(s) == [] {
      assert AllSpace(t[0..]);
      assert s == s[..|s| - |t|] + t;
    }
  }

  /** Trimming keeps a string that starts with a non-space character non-empty and
      keeps that first character. */
  lemma TrimKeepsFirst(s: string)
    ensures |s| > 0 && !IsSpace(s[0]) ==> |Trim(s)| > 0 && Trim(s)[0] == s[0]
  {
    if |s| > 0 && !IsSpace(s[0]) {
      assert TrimStart(s) == s;
    }
  }

  /** A digit string has nothing to trim. */
  lemma TrimDigits(s: string)
    ensures IsDigits(s) ==> Trim(s) == s
  {
    if IsDigits(s) {
      assert TrimStart(s) == s;
      assert TrimEnd(s) == s;
    }
  }

  /** ASCII upper case to lower case; every other character is left alone. */
  function LowerChar(c: char): char {
    if 'A' <= c <= 'Z' then (c as int + 32) as char else c
  }

  /** ASCII lower case to upper case; every other character is left alone. */
  function UpperChar(c: char): char {
    if 'a' <= c <= 'z' then (c as int - 32) as char else c
  }

  /** `s.toLowerCase()` restricted to ASCII letters. */
  function Lower(s: string): (r: string)
    ensures |r| == |s|
    ensures forall i :: 0 <= i < |s| ==> r[i] == LowerChar(s[i])
  {
    seq(|s|, i requires 0 <= i < |s| => LowerChar(s[i]))
  }

  /** `s.toUpperCase()` restricted to ASCII letters. */
  function Upper(s: string): (r: string)
    ensures |r| == |s|
    ensures forall i :: 0 <= i < |s| ==> r[i] == UpperChar(s[i])
  {
    seq(|s|, i requires 0 <= i < |s| => UpperChar(s[i]))
  }

  /** `s` contains `t` starting at position `i`. */
  predicate OccursAt(s: string, t: string, i: int) {
    0 <= i && i + |t| <= |s| && s[i..i + |t|] == t
  }

  /** `s.includes(t)`, computed by scanning the start positions from the left. */
  function Includes(s: string, t: string): (b: bool)
    ensures b <==> exists i :: OccursAt(s, t, i)
    decreases |s|
  {
    if |t| <= |s| && s[..|t|] == t then
      assert OccursAt(s, t, 0);
      true
    else if |s| == 0 then
      false
    else
      var b := Includes(s[1..], t);
      if b then
        var i :| OccursAt(s[1..], t, i);
        assert OccursAt(s, t, i + 1) by { assert s[i + 1..i + 1 + |t|] == s[1..][i..i + |t|]; }
        true
      else
        assert forall i :: OccursAt(s, t, i) ==> i == 0 || OccursAt(s[1..], t, i - 1) by {
          forall i | OccursAt(s, t, i) && i != 0
            ensures OccursAt(s[1..], t, i - 1)
          {
            assert s[1..][i - 1..i - 1 + |t|] == s[i..i + |t|];
          }
        }
        false
  }

  /** `s.split(sep)` for a one-character separator: the maximal separator-free
      pieces, always at least one. */
  function Split(s: string, sep: char): (parts: seq<string>)
    ensures |parts| >= 1
    ensures forall k :: 0 <= k < |parts| ==> sep !in parts[k]
    decreases |s|
  {
    if |s| == 0 then [""]
    else
      var rest := Split(s[1..], sep);
      if s[0] == sep then [""] + rest
      else [[s[0]] + rest[0]] + rest[1..]
  }

  /** `parts.join(sep)` for a one-character separator. */
  function Join(parts: seq<string>, sep: char): string
    decreases |parts|
  {
    if |parts| == 0 then ""
    else if |parts| == 1 then parts[0]
    else parts[0] + [sep] + Join(parts[1..], sep)
  }

  /** Splitting a string at the separator and joining the pieces gives the string back. */
  lemma {:induction false} JoinSplit(s: string, sep: char)
    ensures Join(Split(s, sep), sep) == s
    decreases |s|
  {
    if |s| > 0 {
      var rest := Split(s[1..], sep);
      JoinSplit(s[1..], sep);
      if s[0] == sep {
        assert Join([""] + rest, sep) == "" + [sep] + Join(rest, sep) by {
          assert ([""] + rest)[1..] == rest;
        }
        assert s == [s[0]] + s[1..];
      } else {
        var parts := [[s[0]] + rest[0]] + rest[1..];
        if |rest| == 1 {
          assert Join(parts, sep) == [s[0]] + rest[0];
        } else {
          assert parts[1..] == rest[1..];
          assert Join(rest, sep) == rest[0] + [sep] + Join(rest[1..], sep);
        }
        assert s == [s[0]] + s[1..];
      }
    }
  }

  /** Joining separator-free pieces and splitting again gives the pieces back. */
  lemma {:induction false} SplitJoin(parts: seq<string>, sep: char)
    requires |parts| >= 1
    requires forall k :: 0 <= k < |parts| ==> sep !in parts[k]
    ensures Split(Join(parts, sep), sep) == parts
    decreases |parts|, |parts[0]|
  {
    var p := parts[0];
    if |p| == 0 {
      if |parts| == 1 {
      } else {
        var tail := Join(parts[1..], sep);
        SplitJoin(parts[1..], sep);
        assert Join(parts, sep) == [sep] + tail;
        assert ([sep] + tail)[1..] == tail;
        assert parts == [""] + parts[1..];
      }
    } else {
      var shorter := [p[1..]] + parts[1..];
      assert shorter[1..] == parts[1..];
      assert forall k :: 0 <= k < |shorter| ==> sep !in shorter[k] by {
        assert forall c :: c in p[1..] ==> c in p;
      }
      SplitJoin(shorter, sep);
      var j := Join(parts, sep);
      assert j == [p[0]] + Join(shorter, sep) by {
        if |parts| == 1 {
          assert p == [p[0]] + p[1..];
        } else {
          assert p == [p[0]] + p[1..];
          assert j == p + [sep] + Join(parts[1..], sep);
          assert Join(shorter, sep) == p[1..] + [sep] + Join(parts[1..], sep);
        }
      }
      assert j[0] == p[0] && j[0] != sep;
      assert j[1..] == Join(shorter, sep);
      var rest := Split(j[1..], sep);
      assert rest == shorter;
      assert Split(j, sep) == [[p[0]] + p[1..]] + parts[1..];
      assert [p[0]] + p[1..] == p;
    }
  }

  /** A character other than the separator that no piece contains does not occur in
      the joined string. */
  lemma {:induction false} JoinExcludes(parts: seq<string>, sep: char, c: char)
    requires c != sep
    requires forall k :: 0 <= k < |parts| ==> c !in parts[k]
    ensures c !in Join(parts, sep)
    decreases |parts|
  {
    if |parts| > 1 {
      JoinExcludes(parts[1..], sep, c);
    }
  }

  predicate IsDigit(c: char) {
    '0' <= c <= '9'
  }

  /** A non-empty string of decimal digits. */
  predicate IsDigits(s: string) {
    |s| > 0 && forall i :: 0 <= i < |s| ==> IsDigit(s[i])
  }

  function DigitValue(c: char): nat
    requires IsDigit(c)
  {
    c as int - '0' as int
  }

  /** The value of a string of decimal digits (most significant first). */
  function DigitsValue(s: string): nat
    requires forall i :: 0 <= i < |s| ==> IsDigit(s[i])
    decreases |s|
  {
    if |s| == 0 then 0
    else 10 * DigitsValue(s[..|s| - 1]) + DigitValue(s[|s| - 1])
  }

  function DigitChar(d: nat): (c: char)
    requires d < 10
    ensures IsDigit(c) && DigitValue(c) == d
  {
    ('0' as int + d) as char
  }

  /** The decimal rendering of a natural number, without leading zeros. */
  function NatToString(n: nat): (s: string)
    ensures IsDigits(s)
    ensures |s| > 1 ==> s[0] != '0'
    ensures DigitsValue(s) == n
    decreases n
  {
    if n < 10 then [DigitChar(n)]
    else
      var p := NatToString(n / 10);
      var s := p + [DigitChar(n % 10)];
      assert s[..|s| - 1] == p;
      s
  }

  function Pow10(k: nat): (p: nat)
    ensures p > 0
  {
    if k == 0 then 1 else 10 * Pow10(k - 1)
  }

  lemma MulAtLeast(a: int, d: int)
    requires a >= 1 && d > 0
    ensures a * d >= d
  {
    assert a * d == d + (a - 1) * d;
  }

  /** Division with remainder is unique. */
  lemma ModUnique(x: int, d: int, q: int, r: int)
    requires d > 0 && 0 <= r < d && x == q * d + r
    ensures x % d == r
  {
    var q2 := x / d;
    var r2 := x % d;
    assert x == q2 * d + r2;
    assert q * d - q2 * d == r2 - r;
    assert (q - q2) * d == q * d - q2 * d;
    if q > q2 {
      MulAtLeast(q - q2, d);
    } else if q < q2 {
      assert (q2 - q) * d == q2 * d - q * d;
      MulAtLeast(q2 - q, d);
    }
  }

  lemma ModStep(a: nat, b: nat, m: nat)
    requires b < 10 && m > 0
    ensures (10 * a + b) % (10 * m) == 10 * (a % m) + b
  {
    var q := a / m;
    var r := a % m;
    assert a == q * m + r;
    assert 10 * a + b == q * (10 * m) + (10 * r + b);
    ModUnique(10 * a + b, 10 * m, q, 10 * r + b);
  }

  /** The last k digits of a digit string denote its value modulo 10^k. */
  lemma {:induction false} DigitsValueSuffix(s: string, k: nat)
    requires forall i :: 0 <= i < |s| ==> IsDigit(s[i])
    requires k <= |s|
    ensures DigitsValue(s[|s| - k..]) == DigitsValue(s) % Pow10(k)
    decreases k
  {
    var t := s[|s| - k..];
    if k == 0 {
      assert t == [];
    } else {
      var init := s[..|s| - 1];
      DigitsValueSuffix(init, k - 1);
      assert t[..|t| - 1] == init[|init| - (k - 1)..];
      assert t[|t| - 1] == s[|s| - 1];
      ModStep(DigitsValue(init), DigitValue(s[|s| - 1]), Pow10(k - 1));
    }
  }

  /** Leading zeros do not change the value of a digit string. */
  lemma {:induction false} DigitsValueLeadingZeros(z: string, s: string)
    requires forall i :: 0 <= i < |z| ==> z[i] == '0'
    requires forall i :: 0 <= i < |s| ==> IsDigit(s[i])
    ensures DigitsValue(z + s) == DigitsValue(s)
    decreases |s| + |z|
  {
    if |s| > 0 {
      assert (z + s)[..|z + s| - 1] == z + s[..|s| - 1];
      DigitsValueLeadingZeros(z, s[..|s| - 1]);
    } else if |z| > 0 {
      assert z + s == z;
      assert z[..|z| - 1] + [] == z[..|z| - 1];
      DigitsValueLeadingZeros(z[..|z| - 1], []);
    }
  }

  /** Padding a digit string with zeros keeps it a digit string and keeps its value. */
  lemma PadStartKeepsValue(s: string, width: nat)
    requires forall i :: 0 <= i < |s| ==> IsDigit(s[i])
    ensures forall i :: 0 <= i < |PadStart(s, width, '0')| ==> IsDigit(PadStart(s, width, '0')[i])
    ensures DigitsValue(PadStart(s, width, '0')) == DigitsValue(s)
  {
    var r := PadStart(s, width, '0');
    if |s| < width {
      var z: string := seq(width - |s|, _ => '0');
      assert r == z + s;
      forall i | 0 <= i < |r|
        ensures IsDigit(r[i])
      {
        if i >= |z| {
          assert r[i] == s[i - |z|];
        }
      }
      DigitsValueLeadingZeros(z, s);
    }
  }

  /** The decimal rendering of an integer, as `String(n)` and Python's `str(n)` give it. */
  function IntToString(n: int): (s: string)
    ensures |s| > 0
  {
    if n < 0 then "-" + NatToString(-n) else NatToString(n)
  }

  /** `s.padStart(width, c)`. */
  function PadStart(s: string, width: nat, c: char): (r: string)
    ensures |r| == if |s| >= width then |s| else width
    ensures r[|r| - |s|..] == s
    ensures forall i :: 0 <= i < |r| - |s| ==> r[i] == c
  {
    if |s| >= width then s else seq(width - |s|, _ => c) + s
  }

  /** `s.slice(-k)` for k > 0: the last k characters, or all of `s` when it is shorter. */
  function TakeLast(s: string, k: nat): (r: string)
    ensures |r| == if |s| <= k then |s| else k
    ensures r == s[|s| - |r|..]
  {
    if |s| <= k then s else s[|s| - k..]
  }
}

=== FILE: wrappers.dfy ===
/** The optional value shared by every module of the model. */
module Wrappers {

  /** A value that may be absent: JavaScript's `undefined`/`null`, Python's `None`
      or a missing dictionary key. */
  datatype Option<+T> = None | Some(value: T) {

    /** The value if present, `default` otherwise (the `??` operator). */
    function GetOr(default: T): T {
      match this
      case Some(v) => v
      case None => default
    }
  }
}
